=== FILE: README.md ===
# Digest authentication client — Dafny model

This project models the HTTP Digest authentication client in
`lib/digest-auth.ts`. The dashboard uses it to reach the mining device's
web API, which answers every unauthenticated request with
`401` and a `WWW-Authenticate: Digest …` challenge. The model covers the
three operations of that file:

- **`parseWWWAuthenticate`** (module `ChallengeParser`). It removes the
  `Digest` scheme token case-insensitively, together with the whitespace after it.
  It then runs the global tokenizer `(\w+)=(?:"([^"]+)"|([^\s,]+))` over the
  rest, one match attempt per position (`MatchAt`, `Scan`), and stores every
  match into a plain object, where later keys overwrite earlier ones
  (`Collect`). `Parse` returns the five fields of the declared return type. The
  model follows the regular expression exactly, including where it diverges from a
  quoted-string grammar:
  - `k=""` is read as the bare two-character value `""`;
  - an unterminated `k="abc` is read as `"abc`;
  - a value is never empty;
  - a key `__proto__` sets nothing.
- **`generateDigestAuthHeader`** (module `Authorization`):
  - the destructuring defaults: realm `""`, nonce `""`, qop `auth`,
    nc `00000001`, and a generated cnonce;
  - HA1, HA2 and the response;
  - the directive list in wire order, with the qop group sent only when qop
    is non-empty and `opaque` only when it is non-empty.

  Module `Rfc2617` states the request-digest of section 3.2.2 of RFC 2617 in
  the RFC's own terms (H, KD, A1, A2). The builder is proved to compute it.
- **`authenticatedFetch`** (module `DigestFetch`). It makes one request as the
  caller wrote it. A `401` with a challenge gets exactly one retry, which keeps
  the caller's method, body and headers and sets `Authorization`. A `401`
  without a challenge rejects with `No WWW-Authenticate header found`. Any
  other status returns the first response. A network failure of either
  request rejects the call.

Four things the source gets from its environment are inputs to the model:
- MD5 is a parameter `md5: string -> Digest`. `Digest` is 32 lowercase hex digits.
- The random cnonce is a parameter of type `Cnonce`, 16 lowercase hex digits.
- The network is an oracle `(nat, Request) -> Reply`, indexed by the request's
  position within the call.
- `new URL(url)` is given as its `pathname` and `search`, next to the caller's
  URL string, which both fetches receive as written.

The central results are:
- **Parser round trip.** Directives rendered the way the builder renders them
  scan back to exactly those directives (`ChallengeLemmas.ScanJoin`,
  `ChallengeLemmas.ParseRendered`).
- **Header read-back.** Parsing the Authorization header the builder produces
  gives back every field, including the RFC 2617 response, when the values
  survive the builder's unescaped quoting (`AuthorizationLemmas.HeaderReadsBack`).
- **Retry state machine.** Its properties are in `FetchLemmas`, ending with the
  device's own exchange (`FetchLemmas.DeviceScenario`).

A header without the `Digest` scheme token is not rejected: the `replace` at
lib/digest-auth.ts:42 does nothing and the header is scanned as it is
(`ChallengeParser.StripScheme`).

## Model

| member | source | states |
|---|---|---|
| `Options.GetOr` | lib/digest-auth.ts:66-70 | a destructuring default replaces only an undefined value, never an empty string |
| `Chars.WordCharClass` | lib/digest-auth.ts:45 | `Chars.IsWordChar` is `\w`: ASCII letters, digits and `_`; it is ASCII only and holds for none of `=`, `,`, `"` or whitespace |
| `Chars.SpaceClass` | lib/digest-auth.ts:42-45 | `Chars.IsSpace` is `\s`, the full ECMAScript WhiteSpace and LineTerminator set; within ASCII it is exactly space and tab to carriage return, and it never holds for `,`, `"`, `=` or a word character |
| `Chars.TokenCharClass` | lib/digest-auth.ts:45 | `Chars.IsTokenChar` is `[^\s,]`: it stops at whitespace and commas and takes quotes, `=` and word characters |
| `Chars.QuoteFreeClass` | lib/digest-auth.ts:45 | `Chars.IsQuoteFree` is `[^"]`: it rejects the double quote and nothing else |
| `Chars.Span` | lib/digest-auth.ts:42-45 | a greedy `\s+`, `\w+` or `[^\s,]+` run: the longest prefix whose characters all satisfy the class |
| `Chars.ToLowerAscii` | lib/digest-auth.ts:42 | each of `A`–`Z` folds to its own lower-case letter, 32 code points up, and every other character is left unchanged; for the ASCII pattern `Digest` this is exactly what `/i` without the `u` flag matches, since no non-ASCII character folds onto an ASCII letter |
| `ChallengeParser.HasSchemePrefix` | lib/digest-auth.ts:42 | `^Digest\s` under `/i`: the header is longer than six characters, each of its first six is the letter of `digest` in either case, and the seventh is whitespace |
| `ChallengeParser.StripScheme` | lib/digest-auth.ts:42 | the header is left unchanged exactly when it does not start with `digest` (any case) followed by whitespace; otherwise the whole six-letter token and the whole whitespace run after it are removed, so the rest is a suffix of the header that never opens with whitespace |
| `ChallengeParser.ReadValue` | lib/digest-auth.ts:45 | there is no match exactly when the text is empty or opens with whitespace or a comma; the quoted branch is taken only for at least one non-quote character followed by a closing quote, and yields the text between the quotes; otherwise the value is the maximal non-space, non-comma run, which may contain quotes, and a bare value opening with `"` is read only when the quoted branch cannot match (`""` or no closing quote) |
| `ChallengeParser.MatchAt` | lib/digest-auth.ts:45 | one attempt of the tokenizer consumes exactly the text `key=value` or `key="value"` of the directive it returns; that directive has a word key and a non-empty value; a position that does not start with a word character never matches |
| `ChallengeParser.Scan` | lib/digest-auth.ts:45-52 | every directive the global tokenizer yields has a word key and a non-empty value, with no `"` in a quoted value and no whitespace or comma in a bare one |
| `ChallengeParser.Collect` | lib/digest-auth.ts:48-52 | assigning the matches one after another only adds keys that some match carried, never `__proto__`, and never an empty value |
| `ChallengeParser.Assign` | lib/digest-auth.ts:51 | `params[key] = value` on a plain object: the key `__proto__` leaves the record unchanged; any other key is added or overwritten with the value, and every other key keeps its value |
| `ChallengeParser.Lookup` | lib/digest-auth.ts:54 | reading a property of the record: `undefined` exactly when the key was never assigned, otherwise the value stored under it |
| `ChallengeParser.ParseParams` | lib/digest-auth.ts:39-54 | every key of the parsed record is a word and not `__proto__`, and its value is non-empty |
| `ChallengeParser.Parse` | lib/digest-auth.ts:32-38 | any header parses without an error, and a field that is set is never the empty string |
| `ChallengeLemmas.AbsentKeyKeeps` | lib/digest-auth.ts:48-52 | a key no match carries keeps its previous value or absence |
| `ChallengeLemmas.LastOccurrenceWins` | lib/digest-auth.ts:48-52 | of several matches with the same key, the value of the last is kept |
| `ChallengeLemmas.KeySetIffScanned` | lib/digest-auth.ts:39-54 | a key is set in the record if and only if the tokenizer met it and it is not `__proto__` |
| `ChallengeLemmas.ScannedFieldSet` | lib/digest-auth.ts:48-54 | a header's field is the value of that key's last scanned occurrence |
| `ChallengeLemmas.ScannedFieldUnset` | lib/digest-auth.ts:48-54 | a key the tokenizer never met is left unset |
| `ChallengeLemmas.EmptyQuotedFallsThrough` | lib/digest-auth.ts:45 | `k=""` does not match the quoted branch; the bare branch reads the two quotes as the value |
| `ChallengeLemmas.ReadEmptyQuoted` | lib/digest-auth.ts:45 | after `=`, the text `""` is read as a bare value of two characters |
| `ChallengeLemmas.UnterminatedQuoteReadBare` | lib/digest-auth.ts:45 | `k="abc` with no closing quote is read bare, keeping the opening quote, up to whitespace or comma |
| `ChallengeLemmas.ReadUnterminated` | lib/digest-auth.ts:45 | after `=`, an opening quote with no closing quote is read as part of a bare value |
| `ChallengeLemmas.MatchKeyValue` | lib/digest-auth.ts:45 | at a word key followed by `=`, the match is decided by the value alone, and the key is the whole word run |
| `ChallengeLemmas.ReadQuoted` | lib/digest-auth.ts:45 | a non-empty quote-free value between quotes is read as that value, consuming both quotes |
| `ChallengeLemmas.ReadBare` | lib/digest-auth.ts:45 | a bare value followed by the end, whitespace or a comma is read whole |
| `ChallengeLemmas.MatchRendered` | lib/digest-auth.ts:45 | a directive written as the builder writes it, followed by the end or a comma, is matched whole, with its key, value and quoting |
| `ChallengeLemmas.MatchRenderedQuoted` | lib/digest-auth.ts:45 | a written `key="value"` is matched whole as a quoted directive |
| `ChallengeLemmas.MatchRenderedBare` | lib/digest-auth.ts:45 | a written `key=value` followed by the end or a comma is matched whole as a bare directive |
| `ChallengeLemmas.SkipSeparator` | lib/digest-auth.ts:45-48 | the `", "` separator yields no match |
| `ChallengeLemmas.ScanRenderedOne` | lib/digest-auth.ts:45-52 | one written directive scans back to itself |
| `ChallengeLemmas.ScanRenderedCons` | lib/digest-auth.ts:45-52 | a written directive followed by `", "` scans as that directive, then whatever the rest scans to |
| `ChallengeLemmas.ScanJoin` | lib/digest-auth.ts:45-52 | round trip: scanning the `", "`-join of written directives gives back exactly those directives, in order |
| `ChallengeLemmas.DigestWordHasPrefix` | lib/digest-auth.ts:42 | `Digest ` followed by anything carries the scheme prefix |
| `ChallengeLemmas.StripDigestWord` | lib/digest-auth.ts:42 | `Digest ` is removed exactly, leaving the rest, when the rest does not open with whitespace |
| `ChallengeLemmas.StripAnyCaseScheme` | lib/digest-auth.ts:42 | for the scheme word in any mix of cases, a non-empty whitespace run of any kind, and a rest not opening with whitespace, exactly the word and the run are removed |
| `ChallengeLemmas.StripUpperCaseTab` | lib/digest-auth.ts:42 | `DIGEST` followed by a tab is removed like `Digest ` |
| `ChallengeLemmas.StripRendered` | lib/digest-auth.ts:42 | `Digest ` in front of written directives is removed exactly |
| `ChallengeLemmas.ParseRendered` | lib/digest-auth.ts:42-52 | a `Digest` header of written directives tokenizes to exactly those directives |
| `ChallengeLemmas.ReadBack` | lib/digest-auth.ts:48-54 | in such a header, a key whose last occurrence is at a given position reads back as that occurrence's value |
| `ChallengeLemmas.CollectIgnoresQuoting` | lib/digest-auth.ts:50-51 | taking the quoted or the bare capture, whichever matched, discards the quoting: matches that agree on keys and values give the same record |
| `ChallengeLemmas.QuotingIsInvisible` | lib/digest-auth.ts:45-51 | two headers that differ only in which values are quoted parse to the same record |
| `ChallengeLemmas.QuotedEqualsBare` | lib/digest-auth.ts:45-51 | `k="v"` and `k=v` parse to the same record, which sets `k` to `v` |
| `Directives.Render` | lib/digest-auth.ts:86-101 | a part opens with its key and `=`, carries a `"` after the `=` and at the end when quoted, and is exactly as long as key, `=`, value and those quotes |
| `Directives.RenderCarriesValue` | lib/digest-auth.ts:86-101 | the characters between the `=` (and opening quote) and the end (or closing quote) are exactly the value |
| `Directives.Join` | lib/digest-auth.ts:104 | the joined header is empty exactly when there are no parts |
| `Directives.KeyIsWordRun` | lib/digest-auth.ts:45 | `Directives.IsKey` is `(\w+)`: a key is non-empty and the greedy `\w` run covers all of it |
| `Directives.JoinSeparates` | lib/digest-auth.ts:104 | `join(', ')`: one part is the whole text; otherwise the text is the first part, then `", "`, then the join of the remaining parts in order |
| `Directives.WireValue` | lib/digest-auth.ts:86-101 | what follows `key=` in the rendered part; together with `Directives.WireValueIsValue` this is the value, with quotes when quoted |
| `Directives.WireValueIsValue` | lib/digest-auth.ts:86-101 | the text after `=` is the value itself, enclosed in `"` exactly when the directive is quoted |
| `Directives.JoinOpensWithFirst` | lib/digest-auth.ts:104 | the `", "`-join of the parts opens with the first part |
| `Authorization.Realm` | lib/digest-auth.ts:66 | an undefined realm becomes `""`; a given one, even empty, is kept |
| `Authorization.Nonce` | lib/digest-auth.ts:67 | an undefined nonce becomes `""`; a given one, even empty, is kept |
| `Authorization.Qop` | lib/digest-auth.ts:68 | an undefined qop becomes `auth`; a given one, even empty, is kept |
| `Authorization.Nc` | lib/digest-auth.ts:69 | an undefined nc becomes `00000001`; a given one is kept |
| `Authorization.ClientNonce` | lib/digest-auth.ts:70 | an undefined cnonce becomes the generated one; a given one is kept |
| `Authorization.SendsQop` | lib/digest-auth.ts:94 | `if (qop)`: the qop group is sent exactly when qop is undefined (so `auth`) or a non-empty string |
| `Authorization.SendsOpaque` | lib/digest-auth.ts:100 | `if (opaque)`: opaque is sent exactly when it is defined and non-empty |
| `Authorization.ResponseDigest` | lib/digest-auth.ts:74-82 | the response is the RFC 2617 request-digest KD(H(A1), nonce:nc:cnonce:qop:H(A2)) over the values in effect after the defaults |
| `Authorization.AuthorizationDirectives` | lib/digest-auth.ts:61-102 | username, realm, nonce, uri and response come first and are quoted; `qop` and `nc` bare and `cnonce` quoted follow if and only if qop is non-empty; a quoted `opaque` comes last if and only if it is non-empty; no key repeats |
| `Authorization.AuthorizationHeader` | lib/digest-auth.ts:84-106 | the header opens with `Digest username="<username>"` |
| `AuthorizationLemmas.HeaderText` | lib/digest-auth.ts:84-106 | the header's text is `Digest ` followed by the `", "`-join of the directive list, in the builder's order |
| `AuthorizationLemmas.HeaderTokenizes` | lib/digest-auth.ts:84-106 | when the values survive quoting, the header tokenizes back to exactly the directive list, in order, with nothing added or lost |
| `AuthorizationLemmas.DirectivesCanonical` | lib/digest-auth.ts:84-102 | when the values contain no characters that break quoting, every part the builder writes is one the tokenizer reads whole |
| `AuthorizationLemmas.EmittedReadsBack` | lib/digest-auth.ts:84-106 | when the values survive quoting, each directive the builder writes reads back from the header with its own value |
| `AuthorizationLemmas.OmittedReadsBack` | lib/digest-auth.ts:93-102 | when the values survive quoting, a directive the builder leaves out is unset when the header is parsed |
| `AuthorizationLemmas.HeaderReadsBack` | lib/digest-auth.ts:60-106 | parsing the built header gives username, realm, nonce, uri and the RFC 2617 response; it gives qop, nc and cnonce exactly when qop is non-empty, and opaque exactly when it is non-empty |
| `AuthorizationLemmas.QopGroupReadsBack` | lib/digest-auth.ts:94-98 | when the values survive quoting, qop, nc and cnonce read back together when qop is non-empty, and are all unset otherwise |
| `AuthorizationLemmas.QopGroupSent` | lib/digest-auth.ts:94-98 | when the values survive quoting and qop is non-empty, the header carries qop, nc and cnonce with their values in effect |
| `AuthorizationLemmas.QopGroupUnset` | lib/digest-auth.ts:94-98 | when the values survive quoting and qop is empty, none of qop, nc and cnonce is in the header |
| `AuthorizationLemmas.OpaqueReadsBack` | lib/digest-auth.ts:100-102 | when the values survive quoting, opaque reads back exactly when it was given non-empty |
| `AuthorizationLemmas.MissingQopSendsAuth` | lib/digest-auth.ts:68-69 | an undefined qop and nc are sent as `qop=auth` and `nc=00000001` and signed with those values |
| `AuthorizationLemmas.EmptyOpaqueOmitted` | lib/digest-auth.ts:100-102 | `opaque=""` is never written: an undefined or empty opaque leaves the directive out |
| `DigestFetch.FetchError.Message` | lib/digest-auth.ts:131 | a missing challenge throws `No WWW-Authenticate header found`, a non-empty text; a network failure carries its own reason |
| `DigestFetch.Settle` | lib/digest-auth.ts:150-159 | an awaited fetch resolves with its response, or rejects with its network error |
| `DigestFetch.ChallengeOf` | lib/digest-auth.ts:128-132 | the challenge is present exactly when the header is present and non-empty (`!wwwAuth`) |
| `DigestFetch.SignedMethod` | lib/digest-auth.ts:141 | the signed method is the caller's, or `GET` when it is undefined or empty |
| `DigestFetch.DigestUri` | lib/digest-auth.ts:136 | the signed uri is the path followed by the query string, and nothing else |
| `DigestFetch.ChallengeParams` | lib/digest-auth.ts:138-147 | the builder gets the caller's username and password, the signed method, the path-and-query uri, and the challenge's realm, nonce, qop and opaque as parsed; nc is left to `00000001` and cnonce to the generated one |
| `DigestFetch.RetryInit` | lib/digest-auth.ts:150-156 | the retry options keep the caller's method, body and every header, with `Authorization` set to the computed header |
| `DigestFetch.AuthenticatedFetch` | lib/digest-auth.ts:112-160 | the first request is the caller's; a retry happens if and only if the first reply is a 401 with a challenge; a 401 without one rejects; any other status settles with the first reply; a retry carries the header built from the parsed challenge and settles the call |
| `FetchLemmas.NoChallengeNoRetry` | lib/digest-auth.ts:119-127 | any status but 401 returns that very response after a single request |
| `FetchLemmas.MissingChallengeRejects` | lib/digest-auth.ts:127-132 | a 401 with a missing or empty challenge rejects with `No WWW-Authenticate header found` and is not retried |
| `FetchLemmas.RetryIsFinal` | lib/digest-auth.ts:149-157 | a second 401 is returned to the caller, not answered again |
| `FetchLemmas.RetryKeepsCallerRequest` | lib/digest-auth.ts:150-156 | the retry goes to the same URL with the caller's method, body and headers, and its `Authorization` overrides the caller's and is a `Digest ` header |
| `FetchLemmas.RetrySignsChallenge` | lib/digest-auth.ts:134-156 | the retry's header carries the RFC 2617 response over the challenge's realm, nonce and qop, the signed method, the path and query, `nc=00000001` and the cnonce; it echoes opaque exactly when the challenge had one |
| `FetchLemmas.RealmSet` | lib/digest-auth.ts:48-54 | a challenge of realm, nonce and qop sets realm |
| `FetchLemmas.NonceSet` | lib/digest-auth.ts:48-54 | a challenge of realm, nonce and qop sets nonce |
| `FetchLemmas.QopSet` | lib/digest-auth.ts:48-54 | a challenge of realm, nonce and qop sets qop |
| `FetchLemmas.ThreeFieldsUnset` | lib/digest-auth.ts:48-54 | such a challenge leaves opaque and algorithm unset |
| `FetchLemmas.ThreeFieldChallenge` | lib/digest-auth.ts:32-55 | a header that tokenizes to realm, nonce and qop parses to a challenge with those three and no opaque or algorithm |
| `FetchLemmas.AuthChallengeParses` | lib/digest-auth.ts:32-55 | the device's challenge form `Digest realm="R", nonce="N", qop="auth"` parses to R, N and `auth` |
| `FetchLemmas.AuthChallengeReadable` | lib/digest-auth.ts:134-147 | the builder input made from the device's challenge reads back whole |
| `FetchLemmas.DefaultDigestSpelledOut` | lib/digest-auth.ts:74-82 | with the defaults, the response is MD5(MD5(u:realm:p) ":" nonce ":00000001:" cnonce ":auth:" MD5(method:uri)) |
| `FetchLemmas.ChallengedScenario` | lib/digest-auth.ts:112-160 | a request answered with the device's challenge is retried once, signed with that digest over its realm and nonce, and settles with the retry's reply rather than the 401 |
| `FetchLemmas.DeviceScenario` | lib/digest-auth.ts:112-160 | a GET of `/cgi-bin/stats.cgi` challenged with realm `antMiner`, nonce `N1` and qop `auth` is retried with response MD5(MD5("u:antMiner:p") ":N1:00000001:" cnonce ":auth:" MD5("GET:/cgi-bin/stats.cgi")), and returns the retry's reply |
| `FetchLemmas.TrustedScenario` | lib/digest-auth.ts:119-127 | a 200 to the first request is returned unchanged after a single request |
| `FetchLemmas.UnchallengedScenario` | lib/digest-auth.ts:127-132 | a 401 with no challenge rejects after a single request |

## Left out

- MD5 itself (`md5`, lines 18-20) is not modelled: it is the parameter `md5`. The model assumes only that it returns 32 lowercase hex digits; which hash of the string's bytes it computes is not modelled.
- `generateCnonce` (lines 25-27) draws 8 random bytes. The model takes their hex form as the `Cnonce` input, because randomness is left out.
- `fetch` and the `async`/`await` sequencing are replaced by the network oracle. Cancellation, timeouts and concurrent calls are not modelled, and response bodies are an opaque string.
- `new URL(url)` is not modelled: the `Url` datatype gives its `pathname` and `search` directly, next to the caller's string `text` that both fetches receive unchanged. A URL that `new URL` rejects would already have failed the first request.
- `options.headers` is modelled only as a plain record of names to values. A `Headers` instance or an array of pairs, whose spread behaves differently, is not modelled. Neither is fetch's case-insensitive merging of a caller's `authorization` with the added `Authorization`.
- Strings are sequences of Dafny characters, which are Unicode scalar values, not JavaScript's UTF-16 code units: a character above U+FFFF is one character here but two code units there, and a lone surrogate cannot be represented. Neither difference changes what the tokenizer reads, since none of its classes mentions such characters. `\s` is the JavaScript whitespace and line-terminator set. `/i` is modelled by folding `A`–`Z` only: without the `u` flag JavaScript folds other letters too (`/ä/i` matches `Ä`), but never a non-ASCII character onto an ASCII one, so only the ASCII letters of `digest`, in either case, match the scheme token.
- `__proto__` in a challenge: on a plain object, the assignment changes no own key, so the model drops it. Any effect on the object's prototype is not modelled.
- The `algorithm` field is parsed but never used: the builder always computes plain MD5, not `MD5-sess`, as the source does.
- A challenge offering `qop="auth,auth-int"` is used verbatim: the model, like the source, writes that whole list as the bare `qop` value. The source does not select `auth`.
- AuthorizationLemmas.HeaderReadsBack, EmittedReadsBack, OmittedReadsBack, QopGroupReadsBack, QopGroupSent, QopGroupUnset and OpaqueReadsBack: read-back is stated only for values that the builder's quoting cannot corrupt, because the builder does not escape them. A username or realm with a `"`, or a qop with whitespace, a comma or a leading quote, is not covered. Nor is an empty realm or nonce, which includes the default for an undefined one: the header then carries `realm=""` or `nonce=""`, and the tokenizer reads that back as the two-character value `""`, not as the empty string.
- FetchLemmas.RetrySignsChallenge: stated under the same read-back condition as `HeaderReadsBack`, for the same reason. In particular a challenge without realm or nonce is not covered: the retry then signs and sends `realm=""` or `nonce=""`, which reads back as `""`.
- `RequestInit` is modelled only by its method, headers and body. The other fields that `...options` copies into both requests (lines 120 and 151), such as `redirect`, `signal`, `credentials`, `mode` and `cache`, are not modelled.
- The rest of the repository (the device client, API routes and UI) calls into this file and is not part of this model.

=== FILE: authorization.dfy ===
/**
 The Authorization header builder of the digest client
 (`generateDigestAuthHeader`): defaults for undefined parameters, the
 response computation, and the directive list in its fixed order.
 */
module Authorization {
  import opened Options
  import opened Directives
  import opened Rfc2617

  /** The builder's input; `None` is a parameter left `undefined`. */
  datatype DigestParams = DigestParams(
    username: string,
    password: string,
    requestMethod: string,
    uri: string,
    realm: Option<string>,
    nonce: Option<string>,
    qop: Option<string>,
    nc: Option<string>,
    cnonce: Option<string>,
    opaqueData: Option<string>)

  const DefaultQop := "auth"
  const DefaultNc := "00000001"

  /** Destructuring defaults: they replace `undefined` only, never an empty string. */
  function Realm(p: DigestParams): (r: string)
    ensures p.realm.None? ==> r == ""
    ensures p.realm.Some? ==> r == p.realm.value
  {
    p.realm.GetOr("")
  }

  function Nonce(p: DigestParams): (r: string)
    ensures p.nonce.None? ==> r == ""
    ensures p.nonce.Some? ==> r == p.nonce.value
  {
    p.nonce.GetOr("")
  }

  function Qop(p: DigestParams): (r: string)
    ensures p.qop.None? ==> r == "auth"
    ensures p.qop.Some? ==> r == p.qop.value
  {
    p.qop.GetOr(DefaultQop)
  }

  function Nc(p: DigestParams): (r: string)
    ensures p.nc.None? ==> r == "00000001"
    ensures p.nc.Some? ==> r == p.nc.value
  {
    p.nc.GetOr(DefaultNc)
  }

  /** The cnonce: the caller's, or the freshly generated one when undefined. */
  function ClientNonce(p: DigestParams, generated: Cnonce): (r: string)
    ensures p.cnonce.None? ==> r == generated
    ensures p.cnonce.Some? ==> r == p.cnonce.value
  {
    p.cnonce.GetOr(generated)
  }

  /**
   `if (qop)`: the qop group is sent when the qop in effect is a non-empty
   string, so always when qop is undefined (it defaults to `auth`).
   */
  predicate SendsQop(p: DigestParams): (b: bool)
    ensures b <==> p.qop.None? || p.qop.value != ""
  {
    Qop(p) != ""
  }

  /** `if (opaque)`: undefined and `""` are both falsy, so `opaque` is sent only when it is a non-empty string. */
  predicate SendsOpaque(p: DigestParams): (b: bool)
    ensures b <==> p.opaqueData != None && p.opaqueData != Some("")
  {
    p.opaqueData.Some? && p.opaqueData.value != ""
  }

  /**
   HA1 = MD5(username:realm:password), HA2 = MD5(method:uri) and
   response = MD5(HA1:nonce:nc:cnonce:qop:HA2), over the values in effect
   after the defaults; this is the RFC 2617 request-digest.
   */
  function ResponseDigest(md5: Md5, p: DigestParams, generated: Cnonce): (r: Digest)
    ensures r == RequestDigest(md5, p.username, Realm(p), p.password, p.requestMethod, p.uri,
                               Nonce(p), Nc(p), ClientNonce(p, generated), Qop(p))
  {
    var ha1 := md5(p.username + ":" + Realm(p) + ":" + p.password);
    var ha2 := md5(p.requestMethod + ":" + p.uri);
    var data := Nonce(p) + ":" + Nc(p) + ":" + ClientNonce(p, generated) + ":" + Qop(p) + ":" + ha2;
    assert ha1 + ":" + Nonce(p) + ":" + Nc(p) + ":" + ClientNonce(p, generated) + ":" + Qop(p) + ":" + ha2
        == ha1 + ":" + data;
    md5(ha1 + ":" + Nonce(p) + ":" + Nc(p) + ":" + ClientNonce(p, generated) + ":" + Qop(p) + ":" + ha2)
  }

  /**
   The header's directives in wire order: username, realm, nonce, uri and
   response, all quoted; then `qop` and `nc` bare and `cnonce` quoted when a
   qop is sent; then `opaque` quoted when it is sent.
   */
  function AuthorizationDirectives(md5: Md5, p: DigestParams, generated: Cnonce): (ds: seq<Directive>)
    ensures |ds| == 5 + (if SendsQop(p) then 3 else 0) + (if SendsOpaque(p) then 1 else 0)
    ensures ds[0] == Quoted("username", p.username)
    ensures ds[1] == Quoted("realm", Realm(p))
    ensures ds[2] == Quoted("nonce", Nonce(p))
    ensures ds[3] == Quoted("uri", p.uri)
    ensures ds[4] == Quoted("response", RequestDigest(md5, p.username, Realm(p), p.password, p.requestMethod,
                                                      p.uri, Nonce(p), Nc(p), ClientNonce(p, generated), Qop(p)))
    ensures SendsQop(p) ==> ds[5] == Bare("qop", Qop(p))
    ensures SendsQop(p) ==> ds[6] == Bare("nc", Nc(p))
    ensures SendsQop(p) ==> ds[7] == Quoted("cnonce", ClientNonce(p, generated))
    ensures SendsOpaque(p) ==> ds[|ds| - 1] == Quoted("opaque", p.opaqueData.value)
    ensures forall i, j | 0 <= i < j < |ds| :: ds[i].key != ds[j].key
  {
    var required := [
      Quoted("username", p.username),
      Quoted("realm", Realm(p)),
      Quoted("nonce", Nonce(p)),
      Quoted("uri", p.uri),
      Quoted("response", ResponseDigest(md5, p, generated))];
    var withQop :=
      if SendsQop(p) then
        required + [Bare("qop", Qop(p)), Bare("nc", Nc(p)), Quoted("cnonce", ClientNonce(p, generated))]
      else required;
    if SendsOpaque(p) then withQop + [Quoted("opaque", p.opaqueData.value)] else withQop
  }

  /** Helper: the scheme token followed by the rendered username part. */
  lemma UsernameLead(username: string)
    ensures "Digest " + Render(Quoted("username", username)) == "Digest username=\"" + username + "\""
  {
    assert "Digest " + ("username" + "=\"") == "Digest username=\"";
  }

  /**
   `generateDigestAuthHeader`: the scheme token and the directives joined by
   `", "` (the source writes the scheme into the first part, which yields the
   same text).
   */
  function AuthorizationHeader(md5: Md5, p: DigestParams, generated: Cnonce): (h: string)
    ensures var lead := "Digest username=\"" + p.username + "\""; |h| >= |lead| && h[..|lead|] == lead
  {
    var ds := AuthorizationDirectives(md5, p, generated);
    JoinOpensWithFirst("Digest ", ds);
    assert "Digest " + Render(ds[0]) == "Digest username=\"" + p.username + "\"" by {
      UsernameLead(p.username);
    }
    "Digest " + Join(ds)
  }
}

=== FILE: authorization_lemmas.dfy ===
/**
 Properties of the Authorization header: the defaults that reach the wire,
 and that the header, read with the client's own directive tokenizer,
 carries exactly the values it was built from.
 */
module AuthorizationLemmas {
  import opened Options
  import opened Directives
  import opened Rfc2617
  import opened Authorization
  import opened ChallengeParser
  import opened ChallengeLemmas

  /** Every value the header carries survives the directive tokenizer unchanged. */
  predicate Readable(p: DigestParams, generated: Cnonce) {
    && QuotableValue(p.username)
    && QuotableValue(Realm(p))
    && QuotableValue(Nonce(p))
    && QuotableValue(p.uri)
    && (SendsQop(p) ==> BareValue(Qop(p)) && BareValue(Nc(p)) && QuotableValue(ClientNonce(p, generated)))
    && (SendsOpaque(p) ==> QuotableValue(p.opaqueData.value))
  }

  lemma DirectivesCanonical(md5: Md5, p: DigestParams, generated: Cnonce)
    requires Readable(p, generated)
    ensures AllCanonical(AuthorizationDirectives(md5, p, generated))
  {
    var ds := AuthorizationDirectives(md5, p, generated);
    KeysAreWords();
    forall i | 0 <= i < |ds|
      ensures Canonical(ds[i])
    {
      if i == 4 {
        assert QuotableValue(ds[4].value);
      }
    }
  }

  /** Helper: every key the builder writes is a run of word characters. */
  lemma KeysAreWords()
    ensures IsKey("username") && IsKey("realm") && IsKey("nonce") && IsKey("uri") && IsKey("response")
    ensures IsKey("qop") && IsKey("nc") && IsKey("cnonce") && IsKey("opaque")
  {
  }

  /** The header's wire text: the scheme token, then the directive list joined by `", "`. */
  lemma HeaderText(md5: Md5, p: DigestParams, generated: Cnonce)
    ensures var h := AuthorizationHeader(md5, p, generated);
      |h| >= 7 && h[..7] == "Digest " && h[7..] == Join(AuthorizationDirectives(md5, p, generated))
  {
    var j := Join(AuthorizationDirectives(md5, p, generated));
    assert AuthorizationHeader(md5, p, generated) == "Digest " + j;
    assert ("Digest " + j)[7..] == j;
  }

  /**
   The header's text tokenizes to exactly the directive list, in order:
   nothing is lost, added or reordered between the list and the wire.
   */
  lemma HeaderTokenizes(md5: Md5, p: DigestParams, generated: Cnonce)
    requires Readable(p, generated)
    ensures Scan(StripScheme(AuthorizationHeader(md5, p, generated))) == AuthorizationDirectives(md5, p, generated)
  {
    DirectivesCanonical(md5, p, generated);
    ParseRendered(AuthorizationDirectives(md5, p, generated));
  }

  /** A directive the builder emitted reads back with its value (the header's keys are distinct). */
  lemma EmittedReadsBack(md5: Md5, p: DigestParams, generated: Cnonce, i: nat)
    requires Readable(p, generated)
    requires i < |AuthorizationDirectives(md5, p, generated)|
    ensures var d := AuthorizationDirectives(md5, p, generated)[i];
      Lookup(ParseParams(AuthorizationHeader(md5, p, generated)), d.key) == Some(d.value)
  {
    var ds := AuthorizationDirectives(md5, p, generated);
    DirectivesCanonical(md5, p, generated);
    ReadBack(ds, i);
  }

  /** A key the builder did not emit is unset in the header. */
  lemma OmittedReadsBack(md5: Md5, p: DigestParams, generated: Cnonce, key: string)
    requires Readable(p, generated)
    requires !HasKey(AuthorizationDirectives(md5, p, generated), key)
    ensures Lookup(ParseParams(AuthorizationHeader(md5, p, generated)), key) == None
  {
    var ds := AuthorizationDirectives(md5, p, generated);
    DirectivesCanonical(md5, p, generated);
    ParseRendered(ds);
    KeySetIffScanned(AuthorizationHeader(md5, p, generated), key);
  }

  /**
   Read-back: parsing the Authorization header gives the credentials, the
   challenge values after defaults, the RFC 2617 response, the qop group
   exactly when qop is non-empty and `opaque` exactly when it is non-empty.
   */
  lemma HeaderReadsBack(md5: Md5, p: DigestParams, generated: Cnonce)
    requires Readable(p, generated)
    ensures var params := ParseParams(AuthorizationHeader(md5, p, generated));
      && Lookup(params, "username") == Some(p.username)
      && Lookup(params, "realm") == Some(Realm(p))
      && Lookup(params, "nonce") == Some(Nonce(p))
      && Lookup(params, "uri") == Some(p.uri)
      && Lookup(params, "response") == Some(RequestDigest(md5, p.username, Realm(p), p.password,
                                                          p.requestMethod, p.uri, Nonce(p), Nc(p),
                                                          ClientNonce(p, generated), Qop(p)))
      && Lookup(params, "qop") == (if SendsQop(p) then Some(Qop(p)) else None)
      && Lookup(params, "nc") == (if SendsQop(p) then Some(Nc(p)) else None)
      && Lookup(params, "cnonce") == (if SendsQop(p) then Some(ClientNonce(p, generated)) else None)
      && Lookup(params, "opaque") == (if SendsOpaque(p) then Some(p.opaqueData.value) else None)
  {
    var ds := AuthorizationDirectives(md5, p, generated);
    var params := ParseParams(AuthorizationHeader(md5, p, generated));
    assert Lookup(params, "username") == Some(p.username) by { EmittedReadsBack(md5, p, generated, 0); }
    assert Lookup(params, "realm") == Some(Realm(p)) by { EmittedReadsBack(md5, p, generated, 1); }
    assert Lookup(params, "nonce") == Some(Nonce(p)) by { EmittedReadsBack(md5, p, generated, 2); }
    assert Lookup(params, "uri") == Some(p.uri) by { EmittedReadsBack(md5, p, generated, 3); }
    assert Lookup(params, "response") == Some(ds[4].value) by { EmittedReadsBack(md5, p, generated, 4); }
    QopGroupReadsBack(md5, p, generated);
    OpaqueReadsBack(md5, p, generated);
  }

  lemma QopGroupReadsBack(md5: Md5, p: DigestParams, generated: Cnonce)
    requires Readable(p, generated)
    ensures var params := ParseParams(AuthorizationHeader(md5, p, generated));
      && Lookup(params, "qop") == (if SendsQop(p) then Some(Qop(p)) else None)
      && Lookup(params, "nc") == (if SendsQop(p) then Some(Nc(p)) else None)
      && Lookup(params, "cnonce") == (if SendsQop(p) then Some(ClientNonce(p, generated)) else None)
  {
    if SendsQop(p) {
      QopGroupSent(md5, p, generated);
    } else {
      QopGroupUnset(md5, p, generated);
    }
  }

  lemma QopGroupSent(md5: Md5, p: DigestParams, generated: Cnonce)
    requires Readable(p, generated) && SendsQop(p)
    ensures var params := ParseParams(AuthorizationHeader(md5, p, generated));
      && Lookup(params, "qop") == Some(Qop(p))
      && Lookup(params, "nc") == Some(Nc(p))
      && Lookup(params, "cnonce") == Some(ClientNonce(p, generated))
  {
    EmittedReadsBack(md5, p, generated, 5);
    EmittedReadsBack(md5, p, generated, 6);
    EmittedReadsBack(md5, p, generated, 7);
  }

  lemma QopGroupUnset(md5: Md5, p: DigestParams, generated: Cnonce)
    requires Readable(p, generated) && !SendsQop(p)
    ensures var params := ParseParams(AuthorizationHeader(md5, p, generated));
      && Lookup(params, "qop") == None
      && Lookup(params, "nc") == None
      && Lookup(params, "cnonce") == None
  {
    var ds := AuthorizationDirectives(md5, p, generated);
    assert !HasKey(ds, "qop") by { assert forall i | 0 <= i < |ds| :: ds[i].key != "qop"; }
    assert !HasKey(ds, "nc") by { assert forall i | 0 <= i < |ds| :: ds[i].key != "nc"; }
    assert !HasKey(ds, "cnonce") by { assert forall i | 0 <= i < |ds| :: ds[i].key != "cnonce"; }
    OmittedReadsBack(md5, p, generated, "qop");
    OmittedReadsBack(md5, p, generated, "nc");
    OmittedReadsBack(md5, p, generated, "cnonce");
  }

  lemma OpaqueReadsBack(md5: Md5, p: DigestParams, generated: Cnonce)
    requires Readable(p, generated)
    ensures Lookup(ParseParams(AuthorizationHeader(md5, p, generated)), "opaque")
         == (if SendsOpaque(p) then Some(p.opaqueData.value) else None)
  {
    if SendsOpaque(p) {
      EmittedReadsBack(md5, p, generated, |AuthorizationDirectives(md5, p, generated)| - 1);
    } else {
      OmittedReadsBack(md5, p, generated, "opaque");
    }
  }

  /** A call without qop still sends `qop=auth` and `nc=00000001`, and signs with them. */
  lemma MissingQopSendsAuth(md5: Md5, p: DigestParams, generated: Cnonce)
    requires p.qop.None? && p.nc.None?
    ensures var ds := AuthorizationDirectives(md5, p, generated);
      && ds[5] == Bare("qop", "auth")
      && ds[6] == Bare("nc", "00000001")
      && ds[4].value == RequestDigest(md5, p.username, Realm(p), p.password, p.requestMethod, p.uri,
                                      Nonce(p), "00000001", ClientNonce(p, generated), "auth")
  {
  }

  /** `opaque=""` is never emitted: an empty or undefined opaque leaves the directive out. */
  lemma EmptyOpaqueOmitted(md5: Md5, p: DigestParams, generated: Cnonce)
    requires p.opaqueData.None? || p.opaqueData == Some("")
    ensures !HasKey(AuthorizationDirectives(md5, p, generated), "opaque")
  {
  }
}

=== FILE: challenge.dfy ===
/**
 The WWW-Authenticate challenge parser of the digest client
 (`parseWWWAuthenticate`), written as an explicit scanner in place of the
 global regular expression `/(\w+)=(?:"([^"]+)"|([^\s,]+))/g`.
 */
module ChallengeParser {
  import opened Options
  import opened Chars
  import opened Directives

  /** The scheme token as the case-insensitive prefix pattern `^Digest\s+` folds it. */
  const SchemeFolded := "digest"

  /** Assigning this key on a plain object sets its prototype, and a string value is ignored. */
  const ProtoKey := "__proto__"

  /** The scheme token in upper case; `/i` accepts either case at every letter. */
  const SchemeUpper := "DIGEST"

  /** `h` opens with `Digest` in any ASCII case followed by at least one `\s`. */
  predicate HasSchemePrefix(h: string): (b: bool)
    ensures b <==>
      && |h| > 6
      && (forall i | 0 <= i < 6 :: h[i] == SchemeFolded[i] || h[i] == SchemeUpper[i])
      && IsSpace(h[6])
  {
    && |h| > 6
    && (forall i | 0 <= i < 6 :: ToLowerAscii(h[i]) == SchemeFolded[i])
    && IsSpace(h[6])
  }

  /**
   Removes a leading `Digest` and all whitespace after it; any other header is
   scanned as it is.
   */
  function StripScheme(h: string): (r: string)
    ensures |r| <= |h| && r == h[|h| - |r|..]
    ensures r == h <==> !HasSchemePrefix(h)
    ensures HasSchemePrefix(h) ==> 6 < |h| - |r|
    ensures HasSchemePrefix(h) ==> forall i | 6 <= i < |h| - |r| :: IsSpace(h[i])
    ensures HasSchemePrefix(h) ==> |r| == 0 || !IsSpace(r[0])
  {
    if HasSchemePrefix(h) then h[6 + Span(h[6..], IsSpace)..] else h
  }

  /** One match of the tokenizer: the directive it read and how many characters it consumed. */
  datatype Match = Match(directive: Directive, length: nat)

  /** A value read after `=`: its text, whether it was quoted, and how many characters it took. */
  datatype Value = Value(text: string, quoted: bool, length: nat)

  /**
   The value alternatives in order: `"` + at least one non-quote + `"`, or,
   failing that, one or more characters that are neither whitespace nor comma.
   */
  function ReadValue(rest: string): (r: Option<Value>)
    ensures r.Some? ==> 0 < r.value.length <= |rest| && |r.value.text| > 0
    ensures r.Some? && r.value.quoted ==>
      && r.value.length == |r.value.text| + 2
      && rest[..r.value.length] == "\"" + r.value.text + "\""
      && forall i | 0 <= i < |r.value.text| :: IsQuoteFree(r.value.text[i])
    ensures r.Some? && !r.value.quoted ==>
      && r.value.length == |r.value.text|
      && rest[..r.value.length] == r.value.text
      && forall i | 0 <= i < |r.value.text| :: IsTokenChar(r.value.text[i])
    ensures r.None? <==> |rest| == 0 || !IsTokenChar(rest[0])
    ensures r.Some? && !r.value.quoted ==> r.value.length == |rest| || !IsTokenChar(rest[r.value.length])
    ensures r.Some? && !r.value.quoted && 0 < |rest| && rest[0] == '"' ==>
      (1 < |rest| && rest[1] == '"') || forall j | 1 <= j < |rest| :: rest[j] != '"'
  {
    var q := if 0 < |rest| && rest[0] == '"' then Span(rest[1..], IsQuoteFree) else 0;
    if 0 < q && q + 1 < |rest| then
      assert rest[..q + 2] == "\"" + rest[1..q + 1] + "\"";
      Some(Value(rest[1..q + 1], true, q + 2))
    else
      var t := Span(rest, IsTokenChar);
      if t == 0 then None else Some(Value(rest[..t], false, t))
  }

  /**
   The tokenizer tried at the first character of `s`: a maximal `\w` run, then
   `=`, then a value.
   */
  function MatchAt(s: string): (r: Option<Match>)
    ensures r.Some? ==> 0 < r.value.length <= |s|
    ensures r.Some? ==> Scanned(r.value.directive)
    ensures r.Some? ==> s[..r.value.length] == Render(r.value.directive)
    ensures |s| > 0 && !IsWordChar(s[0]) ==> r.None?
  {
    var k := Span(s, IsWordChar);
    if k == 0 || k == |s| || s[k] != '=' then None
    else
      match ReadValue(s[k + 1..])
      case None => None
      case Some(v) =>
        var d := Directive(s[..k], v.text, v.quoted);
        assert s[..k + 1 + v.length] == Render(d) by {
          TakeAround(s, k, v.length);
          assert s[k + 1..][..v.length] == WireValue(d);
        }
        Some(Match(d, k + 1 + v.length))
  }

  /** The first `k + 1 + n` characters are the `k` before the `=`, the `=`, and `n` after it. */
  lemma TakeAround(s: string, k: nat, n: nat)
    requires k < |s| && s[k] == '=' && n <= |s| - k - 1
    ensures s[..k + 1 + n] == s[..k] + "=" + s[k + 1..][..n]
  {
  }

  /**
   All matches of the global tokenizer over `s`, in order: after a match the
   search resumes where it ended, after a failed position at the next character.
   */
  function Scan(s: string): (ds: seq<Directive>)
    ensures forall i | 0 <= i < |ds| :: Scanned(ds[i])
    decreases |s|
  {
    if |s| == 0 then []
    else
      match MatchAt(s)
      case Some(m) => [m.directive] + Scan(s[m.length..])
      case None => Scan(s[1..])
  }

  /** `params[key] = value` on a plain object. */
  function Assign(params: map<string, string>, key: string, value: string): (r: map<string, string>)
    ensures key == ProtoKey ==> r == params
    ensures key != ProtoKey ==> r.Keys == params.Keys + {key} && r[key] == value
    ensures forall k | k in params && k != key :: k in r && r[k] == params[k]
  {
    if key == ProtoKey then params else params[key := value]
  }

  predicate NonEmptyValues(params: map<string, string>) {
    forall k | k in params :: params[k] != ""
  }

  /** Stores the directives into `params` one after the other, so that a later key overwrites an earlier one. */
  function Collect(ds: seq<Directive>, params: map<string, string>): (r: map<string, string>)
    ensures forall k | k in r && k !in params :: k != ProtoKey && HasKey(ds, k)
    ensures NonEmptyValues(params) && (forall i | 0 <= i < |ds| :: ds[i].value != "") ==> NonEmptyValues(r)
  {
    if |ds| == 0 then params
    else
      Collect(ds[1..], Assign(params, ds[0].key, ds[0].value))
  }

  /** The key/value record `parseWWWAuthenticate` builds from a header. */
  function ParseParams(header: string): (params: map<string, string>)
    ensures forall k | k in params :: IsKey(k) && k != ProtoKey && params[k] != ""
  {
    var ds := Scan(StripScheme(header));
    Collect(ds, map[])
  }

  function Lookup(params: map<string, string>, key: string): (r: Option<string>)
    ensures r.None? <==> key !in params
    ensures r.Some? ==> key in params && r.value == params[key]
  {
    if key in params then Some(params[key]) else None
  }

  /** The five fields of the declared return type; `None` is a field the header did not set. */
  datatype Challenge = Challenge(
    realm: Option<string>,
    nonce: Option<string>,
    qop: Option<string>,
    opaqueData: Option<string>,
    algorithm: Option<string>)

  /** `parseWWWAuthenticate`: no header is rejected, and a field that is set is never empty. */
  function Parse(header: string): (c: Challenge)
    ensures c.realm.Some? ==> c.realm.value != ""
    ensures c.nonce.Some? ==> c.nonce.value != ""
    ensures c.qop.Some? ==> c.qop.value != ""
    ensures c.opaqueData.Some? ==> c.opaqueData.value != ""
    ensures c.algorithm.Some? ==> c.algorithm.value != ""
  {
    var params := ParseParams(header);
    Challenge(
      Lookup(params, "realm"),
      Lookup(params, "nonce"),
      Lookup(params, "qop"),
      Lookup(params, "opaque"),
      Lookup(params, "algorithm"))
  }
}

=== FILE: challenge_lemmas.dfy ===
/**
 Properties of the challenge parser: which occurrence of a key wins, what the
 tokenizer does at its edges, and that directives rendered the way the
 client renders them read back unchanged.
 */
module ChallengeLemmas {
  import opened Options
  import opened Chars
  import opened Directives
  import opened ChallengeParser

  /** Collecting directives that never mention `k` leaves `k` as it was. */
  lemma {:induction false} AbsentKeyKeeps(ds: seq<Directive>, params: map<string, string>, k: string)
    requires !HasKey(ds, k)
    ensures Lookup(Collect(ds, params), k) == Lookup(params, k)
    decreases |ds|
  {
    if |ds| > 0 {
      assert !HasKey(ds[1..], k) by {
        forall i | 0 <= i < |ds[1..]|
          ensures ds[1..][i].key != k
        {
          assert ds[1..][i] == ds[i + 1];
        }
      }
      AbsentKeyKeeps(ds[1..], Assign(params, ds[0].key, ds[0].value), k);
    }
  }

  /** When a key occurs several times, the value of its last occurrence is the one kept. */
  lemma {:induction false} LastOccurrenceWins(ds: seq<Directive>, params: map<string, string>, k: string, i: nat)
    requires i < |ds| && ds[i].key == k && k != ProtoKey
    requires forall j | i < j < |ds| :: ds[j].key != k
    ensures Lookup(Collect(ds, params), k) == Some(ds[i].value)
    decreases |ds|
  {
    var next := Assign(params, ds[0].key, ds[0].value);
    if i == 0 {
      assert !HasKey(ds[1..], k) by {
        forall j | 0 <= j < |ds[1..]|
          ensures ds[1..][j].key != k
        {
          assert ds[1..][j] == ds[j + 1];
        }
      }
      AbsentKeyKeeps(ds[1..], next, k);
    } else {
      LastOccurrenceWins(ds[1..], next, k, i - 1);
    }
  }

  /** A header sets a key exactly when the tokenizer met that key (and it is not `__proto__`). */
  lemma KeySetIffScanned(header: string, k: string)
    ensures k in ParseParams(header) <==> k != ProtoKey && HasKey(Scan(StripScheme(header)), k)
  {
    var ds := Scan(StripScheme(header));
    if k != ProtoKey && HasKey(ds, k) {
      var i :| 0 <= i < |ds| && ds[i].key == k;
      while i + 1 < |ds| && HasKey(ds[i + 1..], k)
        invariant 0 <= i < |ds| && ds[i].key == k
        decreases |ds| - i
      {
        var j :| 0 <= j < |ds[i + 1..]| && ds[i + 1..][j].key == k;
        i := i + 1 + j;
      }
      assert forall j | i < j < |ds| :: ds[j].key != k by {
        forall j | i < j < |ds|
          ensures ds[j].key != k
        {
          assert ds[j] == ds[i + 1..][j - i - 1];
        }
      }
      LastOccurrenceWins(ds, map[], k, i);
    } else if k != ProtoKey {
      AbsentKeyKeeps(ds, map[], k);
    }
  }

  /** A key whose last scanned occurrence is at `i` is set to that occurrence's value. */
  lemma ScannedFieldSet(header: string, ds: seq<Directive>, i: nat)
    requires Scan(StripScheme(header)) == ds
    requires i < |ds| && ds[i].key != ProtoKey
    requires forall j | i < j < |ds| :: ds[j].key != ds[i].key
    ensures Lookup(ParseParams(header), ds[i].key) == Some(ds[i].value)
  {
    LastOccurrenceWins(ds, map[], ds[i].key, i);
  }

  /** A key the tokenizer never met stays unset. */
  lemma ScannedFieldUnset(header: string, ds: seq<Directive>, k: string)
    requires Scan(StripScheme(header)) == ds
    requires !HasKey(ds, k)
    ensures Lookup(ParseParams(header), k) == None
  {
    AbsentKeyKeeps(ds, map[], k);
  }

  /** `k=""`: the empty quoted value does not match `"([^"]+)"`, so the two quotes are read as a bare value. */
  lemma EmptyQuotedFallsThrough(k: string, tail: string)
    requires IsKey(k)
    requires tail == [] || !IsTokenChar(tail[0])
    ensures MatchAt(k + "=\"\"" + tail) == Some(Match(Bare(k, "\"\""), |k| + 3))
  {
    var rest := "\"\"" + tail;
    assert k + "=\"\"" + tail == k + "=" + rest;
    MatchKeyValue(k, rest);
    ReadEmptyQuoted(tail);
  }

  lemma ReadEmptyQuoted(tail: string)
    requires tail == [] || !IsTokenChar(tail[0])
    ensures ReadValue("\"\"" + tail) == Some(Value("\"\"", false, 2))
  {
    var rest := "\"\"" + tail;
    assert rest[1..] == "\"" + tail;
    SpanIs(rest[1..], IsQuoteFree, 0);
    SpanIs(rest, IsTokenChar, 2);
    assert rest[..2] == "\"\"";
  }

  /** `k="abc` with no closing quote: the value is read bare, opening quote included, up to whitespace or comma. */
  lemma UnterminatedQuoteReadBare(k: string, v: string, tail: string)
    requires IsKey(k)
    requires forall i | 0 <= i < |v| :: IsTokenChar(v[i]) && IsQuoteFree(v[i])
    requires forall i | 0 <= i < |tail| :: IsQuoteFree(tail[i])
    requires tail == [] || !IsTokenChar(tail[0])
    ensures MatchAt(k + "=\"" + v + tail) == Some(Match(Bare(k, "\"" + v), |k| + 2 + |v|))
  {
    var rest := "\"" + v + tail;
    assert k + "=\"" + v + tail == k + "=" + rest;
    MatchKeyValue(k, rest);
    ReadUnterminated(v, tail);
  }

  lemma ReadUnterminated(v: string, tail: string)
    requires forall i | 0 <= i < |v| :: IsTokenChar(v[i]) && IsQuoteFree(v[i])
    requires forall i | 0 <= i < |tail| :: IsQuoteFree(tail[i])
    requires tail == [] || !IsTokenChar(tail[0])
    ensures ReadValue("\"" + v + tail) == Some(Value("\"" + v, false, 1 + |v|))
  {
    var rest := "\"" + v + tail;
    assert rest[1..] == v + tail;
    SpanIs(rest[1..], IsQuoteFree, |v| + |tail|);
    SpanIs(rest, IsTokenChar, 1 + |v|);
    assert rest[..1 + |v|] == "\"" + v;
  }

  /** A canonical directive followed by the end or by a comma is matched whole. */
  lemma MatchRendered(d: Directive, tail: string)
    requires Canonical(d)
    requires tail == [] || tail[0] == ','
    ensures MatchAt(Render(d) + tail) == Some(Match(d, |Render(d)|))
  {
    if d.quoted {
      MatchRenderedQuoted(d.key, d.value, tail);
    } else {
      MatchRenderedBare(d.key, d.value, tail);
    }
  }

  /** After a `\\w` key and `=`, the match is decided by the value alone. */
  lemma MatchKeyValue(key: string, rest: string)
    requires IsKey(key)
    ensures MatchAt(key + "=" + rest) ==
      match ReadValue(rest)
      case None => None
      case Some(v) => Some(Match(Directive(key, v.text, v.quoted), |key| + 1 + v.length))
  {
    var s := key + "=" + rest;
    assert forall i | 0 <= i < |key| :: s[i] == key[i];
    SpanIs(s, IsWordChar, |key|);
    assert s[..|key|] == key;
    assert s[|key| + 1..] == rest;
  }

  lemma ReadQuoted(value: string, tail: string)
    requires QuotableValue(value)
    ensures ReadValue("\"" + value + "\"" + tail) == Some(Value(value, true, |value| + 2))
  {
    var rest := "\"" + value + "\"" + tail;
    assert rest[1..] == value + "\"" + tail;
    SpanIs(rest[1..], IsQuoteFree, |value|);
    assert rest[1..|value| + 1] == value;
  }

  lemma ReadBare(value: string, tail: string)
    requires BareValue(value)
    requires tail == [] || !IsTokenChar(tail[0])
    ensures ReadValue(value + tail) == Some(Value(value, false, |value|))
  {
    var rest := value + tail;
    SpanIs(rest, IsTokenChar, |value|);
    assert rest[..|value|] == value;
  }

  lemma MatchRenderedQuoted(key: string, value: string, tail: string)
    requires Canonical(Quoted(key, value))
    ensures MatchAt(Render(Quoted(key, value)) + tail) == Some(Match(Quoted(key, value), |key| + |value| + 3))
  {
    var d := Quoted(key, value);
    var rest := WireValue(d) + tail;
    assert Render(d) + tail == key + "=" + rest by {
      assert Render(d) == key + "=" + WireValue(d);
    }
    assert MatchAt(key + "=" + rest) == Some(Match(d, |key| + |value| + 3)) by {
      assert rest == "\"" + value + "\"" + tail;
      MatchKeyValue(key, rest);
      ReadQuoted(value, tail);
    }
  }

  lemma MatchRenderedBare(key: string, value: string, tail: string)
    requires Canonical(Bare(key, value))
    requires tail == [] || tail[0] == ','
    ensures MatchAt(Render(Bare(key, value)) + tail) == Some(Match(Bare(key, value), |key| + |value| + 1))
  {
    var d := Bare(key, value);
    var rest := value + tail;
    ReadBare(value, tail);
    MatchKeyValue(key, rest);
    assert Render(d) + tail == key + "=" + rest by {
      assert Render(d) == key + "=" + WireValue(d);
    }
  }

  /** The `", "` separator carries no directive. */
  lemma SkipSeparator(tail: string)
    ensures Scan(", " + tail) == Scan(tail)
  {
    var s := ", " + tail;
    assert s[1..] == " " + tail;
    assert (" " + tail)[1..] == tail;
  }

  lemma JoinStartsWithKey(ds: seq<Directive>)
    requires |ds| > 0 && IsKey(ds[0].key)
    ensures |Join(ds)| > 0 && Join(ds)[0] == ds[0].key[0]
  {
  }

  /** A single rendered directive scans back to itself. */
  lemma ScanRenderedOne(d: Directive)
    requires Canonical(d)
    ensures Scan(Join([d])) == [d]
  {
    var r := Render(d);
    assert Join([d]) == r;
    assert Scan(r) == [d] + Scan(r[|r|..]) by {
      MatchRendered(d, "");
      assert r + "" == r;
    }
    assert r[|r|..] == "";
  }

  /** One rendered directive in front of `", "` and the rest scans as that directive, then the rest. */
  lemma ScanRenderedCons(ds: seq<Directive>)
    requires |ds| > 1 && Canonical(ds[0])
    ensures Scan(Join(ds)) == [ds[0]] + Scan(Join(ds[1..]))
  {
    var r, tail := Render(ds[0]), Join(ds[1..]);
    var s := r + (", " + tail);
    assert Join(ds) == s;
    assert Scan(s) == [ds[0]] + Scan(", " + tail) by {
      MatchRendered(ds[0], ", " + tail);
      assert s[|r|..] == ", " + tail;
    }
    SkipSeparator(tail);
  }

  /** Scanning the `", "`-join of canonical directives gives back exactly those directives. */
  lemma {:induction false} ScanJoin(ds: seq<Directive>)
    requires AllCanonical(ds)
    ensures Scan(Join(ds)) == ds
    decreases |ds|
  {
    if |ds| == 1 {
      assert ds == [ds[0]];
      ScanRenderedOne(ds[0]);
    } else if |ds| > 1 {
      ScanRenderedCons(ds);
      ScanJoin(ds[1..]);
      assert ds == [ds[0]] + ds[1..];
    }
  }

  /** `Digest ` followed by anything has the scheme prefix. */
  lemma DigestWordHasPrefix(rest: string)
    ensures HasSchemePrefix("Digest " + rest)
  {
    var h := "Digest " + rest;
    forall i | 0 <= i < 6
      ensures ToLowerAscii(h[i]) == SchemeFolded[i]
    {
      assert h[i] == "Digest "[i];
    }
    assert IsSpace(h[6]) by { assert h[6] == ' '; }
  }

  /** `Digest ` and one space are stripped exactly when the rest does not open with whitespace. */
  lemma StripDigestWord(rest: string)
    requires |rest| == 0 || !IsSpace(rest[0])
    ensures StripScheme("Digest " + rest) == rest
  {
    var h := "Digest " + rest;
    DigestWordHasPrefix(rest);
    assert h[6..] == " " + rest;
    SpanIs(h[6..], IsSpace, 1);
    assert h[7..] == rest;
  }

  /**
   The scheme token in any mix of upper and lower case, followed by any
   non-empty whitespace run, is removed together with the whole run.
   */
  lemma StripAnyCaseScheme(w: string, ws: string, rest: string)
    requires |w| == 6 && forall i | 0 <= i < 6 :: w[i] == SchemeFolded[i] || w[i] == SchemeUpper[i]
    requires |ws| > 0 && forall i | 0 <= i < |ws| :: IsSpace(ws[i])
    requires |rest| == 0 || !IsSpace(rest[0])
    ensures StripScheme(w + ws + rest) == rest
  {
    var h := w + ws + rest;
    assert forall i | 0 <= i < 6 :: h[i] == w[i];
    assert h[6] == ws[0];
    assert HasSchemePrefix(h);
    assert h[6..] == ws + rest;
    SpanIs(h[6..], IsSpace, |ws|);
    assert h[6 + |ws|..] == rest;
  }

  /** An all-caps scheme with a tab: `DIGEST\trealm=x` is stripped to `realm=x`. */
  lemma StripUpperCaseTab(rest: string)
    requires |rest| == 0 || !IsSpace(rest[0])
    ensures StripScheme("DIGEST\t" + rest) == rest
  {
    assert "DIGEST\t" + rest == SchemeUpper + "\t" + rest;
    StripAnyCaseScheme(SchemeUpper, "\t", rest);
  }

  /** `Digest ` in front of canonical directives is stripped exactly. */
  lemma StripRendered(ds: seq<Directive>)
    requires AllCanonical(ds)
    ensures StripScheme("Digest " + Join(ds)) == Join(ds)
  {
    if |ds| > 0 {
      JoinStartsWithKey(ds);
    }
    StripDigestWord(Join(ds));
  }

  /** A `Digest` header of canonical directives parses to the same directives. */
  lemma ParseRendered(ds: seq<Directive>)
    requires AllCanonical(ds)
    ensures Scan(StripScheme("Digest " + Join(ds))) == ds
  {
    StripRendered(ds);
    ScanJoin(ds);
  }

  /** Read-back: a key that a rendered header carries maps to its last value. */
  lemma {:induction false} ReadBack(ds: seq<Directive>, i: nat)
    requires AllCanonical(ds)
    requires i < |ds| && ds[i].key != ProtoKey
    requires forall j | i < j < |ds| :: ds[j].key != ds[i].key
    ensures Lookup(ParseParams("Digest " + Join(ds)), ds[i].key) == Some(ds[i].value)
  {
    ParseRendered(ds);
    LastOccurrenceWins(ds, map[], ds[i].key, i);
  }

  /** Directives that agree on keys and values parse the same, whether their values were quoted or not. */
  lemma {:induction false} CollectIgnoresQuoting(ds: seq<Directive>, ds': seq<Directive>, params: map<string, string>)
    requires |ds| == |ds'|
    requires forall i | 0 <= i < |ds| :: ds[i].key == ds'[i].key && ds[i].value == ds'[i].value
    ensures Collect(ds, params) == Collect(ds', params)
    decreases |ds|
  {
    if |ds| > 0 {
      CollectIgnoresQuoting(ds[1..], ds'[1..], Assign(params, ds[0].key, ds[0].value));
    }
  }

  /** `k="v"` and `k=v` give the same parameters, whenever both spellings are canonical. */
  lemma QuotingIsInvisible(ds: seq<Directive>, ds': seq<Directive>)
    requires AllCanonical(ds) && AllCanonical(ds')
    requires |ds| == |ds'|
    requires forall i | 0 <= i < |ds| :: ds[i].key == ds'[i].key && ds[i].value == ds'[i].value
    ensures ParseParams("Digest " + Join(ds)) == ParseParams("Digest " + Join(ds'))
  {
    ParseRendered(ds);
    ParseRendered(ds');
    CollectIgnoresQuoting(ds, ds', map[]);
  }

  /** The single-directive instance: `nonce="abc"` and `nonce=abc` both set `nonce` to `abc`. */
  lemma QuotedEqualsBare(k: string, v: string)
    requires IsKey(k) && k != ProtoKey
    requires BareValue(v) && QuotableValue(v)
    ensures ParseParams("Digest " + k + "=\"" + v + "\"") == ParseParams("Digest " + k + "=" + v)
    ensures Lookup(ParseParams("Digest " + k + "=" + v), k) == Some(v)
  {
    var q, b := [Quoted(k, v)], [Bare(k, v)];
    assert "Digest " + Join(q) == "Digest " + k + "=\"" + v + "\"";
    assert "Digest " + Join(b) == "Digest " + k + "=" + v;
    QuotingIsInvisible(q, b);
    ReadBack(b, 0);
  }
}

=== FILE: chars.dfy ===
/**
 Character classes of the JavaScript regular expressions the client uses
 (without the `u` flag), and the longest-prefix `Span` every scanner is built on.
 */
module Chars {

  /** `\w`: ASCII letters, digits and underscore. */
  predicate IsWordChar(c: char) {
    ('a' <= c <= 'z') || ('A' <= c <= 'Z') || ('0' <= c <= '9') || c == '_'
  }

  /** `\s`: the ECMAScript WhiteSpace and LineTerminator code points. */
  predicate IsSpace(c: char) {
    || c == '\t' || c == '\n' || c == '\U{000B}' || c == '\U{000C}' || c == '\r' || c == ' '
    || c == '\U{00A0}' || c == '\U{1680}' || ('\U{2000}' <= c <= '\U{200A}')
    || c == '\U{2028}' || c == '\U{2029}' || c == '\U{202F}' || c == '\U{205F}'
    || c == '\U{3000}' || c == '\U{FEFF}'
  }

  /** `[^\s,]`: a character of an unquoted directive value. */
  predicate IsTokenChar(c: char) {
    !IsSpace(c) && c != ','
  }

  /** `[^"]`: a character of a quoted directive value. */
  predicate IsQuoteFree(c: char) {
    c != '"'
  }

  /** `\w` is ASCII only, and contains none of the characters the directive syntax uses as delimiters. */
  lemma WordCharClass(c: char)
    ensures IsWordChar(c) ==> c as int < 128
    ensures IsWordChar(c) ==> c != '=' && c != ',' && c != '"' && c != ' ' && !('\t' <= c <= '\r')
  {
  }

  /** Within ASCII, `\s` is exactly space and tab to carriage return; it never holds for a delimiter. */
  lemma SpaceClass(c: char)
    ensures c as int < 128 ==> (IsSpace(c) <==> c == ' ' || '\t' <= c <= '\r')
    ensures IsSpace(c) ==> c != ',' && c != '"' && c != '=' && !IsWordChar(c)
  {
  }

  /** `[^\s,]` stops at whitespace and commas, and takes quotes, `=` and word characters. */
  lemma TokenCharClass(c: char)
    ensures c == ',' || IsSpace(c) ==> !IsTokenChar(c)
    ensures c == '"' || c == '=' || IsWordChar(c) ==> IsTokenChar(c)
  {
  }

  /** `[^"]` rejects only the double quote. */
  lemma QuoteFreeClass(c: char)
    ensures !IsQuoteFree(c) <==> c == '"'
    ensures IsWordChar(c) || IsSpace(c) || c == ',' || c == '=' ==> IsQuoteFree(c)
  {
  }

  predicate IsLowerHexDigit(c: char) {
    ('0' <= c <= '9') || ('a' <= c <= 'f')
  }

  /** `s` is exactly `n` lowercase hexadecimal digits, the form of Node's `digest('hex')`. */
  predicate IsLowerHex(s: string, n: nat) {
    |s| == n && forall i | 0 <= i < |s| :: IsLowerHexDigit(s[i])
  }

  /** Case folding of the `i` flag for an ASCII pattern letter: only ASCII letters fold onto ASCII letters. */
  function ToLowerAscii(c: char): (r: char)
    ensures 'A' <= c <= 'Z' ==> 'a' <= r <= 'z' && r as int == c as int + 32
    ensures !('A' <= c <= 'Z') ==> r == c
  {
    if 'A' <= c <= 'Z' then (c as int + 32) as char else c
  }

  /** Length of the longest prefix of `s` whose characters all satisfy `keep` (a greedy `[...]*`). */
  function Span(s: string, keep: char -> bool): (n: nat)
    ensures n <= |s|
    ensures forall i | 0 <= i < n :: keep(s[i])
    ensures n < |s| ==> !keep(s[n])
  {
    if |s| == 0 || !keep(s[0]) then 0 else 1 + Span(s[1..], keep)
  }

  /** The longest kept prefix is unique: any `n` that stops at the first rejected character is `Span`. */
  lemma SpanIs(s: string, keep: char -> bool, n: nat)
    requires n <= |s|
    requires forall i | 0 <= i < n :: keep(s[i])
    requires n < |s| ==> !keep(s[n])
    ensures Span(s, keep) == n
  {
  }
}

=== FILE: directives.dfy ===
/**
 Digest directives: the `key=value` and `key="value"` items that both the
 WWW-Authenticate challenge and the Authorization header are made of.
 */
module Directives {
  import opened Chars

  /** One directive; `quoted` tells whether the value sits between double quotes. */
  datatype Directive = Directive(key: string, value: string, quoted: bool)

  function Quoted(key: string, value: string): Directive {
    Directive(key, value, true)
  }

  function Bare(key: string, value: string): Directive {
    Directive(key, value, false)
  }

  /** Wire form of one directive: `key="value"` or `key=value`. */
  function Render(d: Directive): (r: string)
    ensures |r| == |d.key| + 1 + |d.value| + (if d.quoted then 2 else 0)
    ensures r[..|d.key|] == d.key && r[|d.key|] == '='
    ensures d.quoted ==> r[|d.key| + 1] == '"' && r[|r| - 1] == '"'
  {
    if d.quoted then d.key + "=\"" + d.value + "\"" else d.key + "=" + d.value
  }

  /** Between the `=` and the closing quote, if any, stands the directive's value itself. */
  lemma RenderCarriesValue(d: Directive)
    ensures var r, o := Render(d), if d.quoted then 1 else 0;
      r[|d.key| + 1 + o..|r| - o] == d.value
  {
  }

  /** The value as written after the `=`: with its quotes when quoted. */
  function WireValue(d: Directive): (w: string)
    ensures d.key + "=" + w == Render(d)
  {
    if d.quoted then "\"" + d.value + "\"" else d.value
  }

  /** The directives joined by `", "`, as `Array.prototype.join(', ')` does. */
  function Join(ds: seq<Directive>): (r: string)
    ensures |r| == 0 <==> |ds| == 0
  {
    if |ds| == 0 then ""
    else if |ds| == 1 then Render(ds[0])
    else Render(ds[0]) + ", " + Join(ds[1..])
  }

  /** After the `=` comes the value itself, between quotes exactly when the directive is quoted. */
  lemma WireValueIsValue(d: Directive)
    ensures var w, o := WireValue(d), if d.quoted then 1 else 0;
      && |w| == |d.value| + 2 * o
      && w[o..|w| - o] == d.value
      && (d.quoted ==> w[0] == '"' && w[|w| - 1] == '"')
  {
  }

  /**
   The join's wire text: a single part is the whole text; otherwise the first
   part, then `", "`, then the join of the remaining parts, in order.
   */
  lemma JoinSeparates(ds: seq<Directive>)
    ensures |ds| == 1 ==> Join(ds) == Render(ds[0])
    ensures |ds| > 1 ==> var r, n := Join(ds), |Render(ds[0])|;
      && n + 2 <= |r|
      && r[..n] == Render(ds[0])
      && r[n..n + 2] == ", "
      && r[n + 2..] == Join(ds[1..])
  {
    if |ds| > 1 {
      var n := |Render(ds[0])|;
      var rest := Join(ds[1..]);
      assert Join(ds) == Render(ds[0]) + ", " + rest;
      assert (Render(ds[0]) + ", " + rest)[n + 2..] == rest;
    }
  }

  /** The joined text opens with the first directive. */
  lemma JoinOpensWithFirst(prefix: string, ds: seq<Directive>)
    requires |ds| > 0
    ensures |prefix + Join(ds)| >= |prefix + Render(ds[0])|
    ensures (prefix + Join(ds))[..|prefix + Render(ds[0])|] == prefix + Render(ds[0])
  {
    var r := Render(ds[0]);
    if |ds| == 1 {
      assert prefix + Join(ds) == prefix + r;
    } else {
      var x := ", " + Join(ds[1..]);
      assert prefix + Join(ds) == (prefix + r) + x;
      TakeConcat(prefix + r, x);
    }
  }

  lemma TakeConcat(a: string, b: string)
    ensures (a + b)[..|a|] == a
  {
  }

  /** A key is one or more `\w` characters. */
  predicate IsKey(k: string) {
    |k| > 0 && forall i | 0 <= i < |k| :: IsWordChar(k[i])
  }

  /** A key is exactly a whole greedy `\w+` run: non-empty, and the run covers all of it. */
  lemma KeyIsWordRun(k: string)
    ensures IsKey(k) <==> |k| > 0 && Span(k, IsWordChar) == |k|
  {
    if |k| > 0 && Span(k, IsWordChar) == |k| {
      assert forall i | 0 <= i < |k| :: IsWordChar(k[i]);
    }
    if IsKey(k) {
      SpanIs(k, IsWordChar, |k|);
    }
  }

  /**
   What the challenge tokenizer can produce: a word key, a non-empty value,
   with no `"` inside a quoted value and no whitespace or comma inside a bare one.
   */
  predicate Scanned(d: Directive) {
    && IsKey(d.key)
    && |d.value| > 0
    && (d.quoted ==> forall i | 0 <= i < |d.value| :: IsQuoteFree(d.value[i]))
    && (!d.quoted ==> forall i | 0 <= i < |d.value| :: IsTokenChar(d.value[i]))
  }

  /** A value that can sit between quotes: non-empty, without `"`. */
  predicate QuotableValue(v: string) {
    |v| > 0 && forall i | 0 <= i < |v| :: IsQuoteFree(v[i])
  }

  /**
   A value that can stand bare: non-empty, no whitespace or comma, and not
   opening with `"` (the tokenizer would try to read it as a quoted one).
   */
  predicate BareValue(v: string) {
    |v| > 0 && v[0] != '"' && forall i | 0 <= i < |v| :: IsTokenChar(v[i])
  }

  /** A directive that reads back as itself. */
  predicate Canonical(d: Directive) {
    IsKey(d.key) && (if d.quoted then QuotableValue(d.value) else BareValue(d.value))
  }

  predicate AllCanonical(ds: seq<Directive>) {
    forall i | 0 <= i < |ds| :: Canonical(ds[i])
  }

  predicate HasKey(ds: seq<Directive>, k: string) {
    exists i | 0 <= i < |ds| :: ds[i].key == k
  }
}

=== FILE: fetch.dfy ===
/**
 The two-step request of the digest client (`authenticatedFetch`): one
 plain request, and, only when it is answered 401 with a challenge, one
 retry carrying the computed Authorization header. The network is an
 oracle from the call's position and request to a reply.
 */
module DigestFetch {
  import opened Options
  import opened Rfc2617
  import opened Authorization
  import opened ChallengeParser

  const AuthorizationName := "Authorization"
  const DefaultMethod := "GET"
  const Unauthorized := 401
  const MissingChallengeMessage := "No WWW-Authenticate header found"

  /**
   The target URL: `text` is the caller's string exactly as written, which both
   fetches receive; `pathname` and `search` are what `new URL(url)` gives for it.
   */
  datatype Url = Url(text: string, pathname: string, search: string)

  /** The caller's `RequestInit`: method, header record and body; spreading it copies all three. */
  datatype RequestInit = RequestInit(requestMethod: Option<string>, headers: map<string, string>, body: Option<string>)

  /** One call of `fetch(url, init)`. */
  datatype Request = Request(url: string, init: RequestInit)

  /** What the client reads of a response: the status, `headers.get('WWW-Authenticate')`, and the rest. */
  datatype Response = Response(status: int, wwwAuthenticate: Option<string>, body: string)

  /** A fetch either resolves with a response or rejects (DNS, refused connection, timeout). */
  datatype Reply = Received(response: Response) | NetworkError(reason: string)

  datatype FetchError = MissingChallenge | Transport(reason: string) {
    function Message(): (m: string)
      ensures MissingChallenge? ==> m == MissingChallengeMessage && |m| > 0
      ensures Transport? ==> m == reason
    {
      match this
      case MissingChallenge => MissingChallengeMessage
      case Transport(reason) => reason
    }
  }

  /** How the returned promise settles. */
  datatype Outcome = Resolved(response: Response) | Rejected(error: FetchError)

  /** The requests issued, in order, and how the call settled. */
  datatype Exchange = Exchange(sent: seq<Request>, outcome: Outcome)

  /** The network: the reply to the `n`-th request issued by one call. */
  type Network = (nat, Request) -> Reply

  /** Awaiting a fetch: its rejection propagates out of the call. */
  function Settle(reply: Reply): (o: Outcome)
    ensures reply.Received? <==> o.Resolved?
    ensures reply.Received? ==> o.response == reply.response
    ensures reply.NetworkError? ==> o.error == Transport(reply.reason)
  {
    match reply
    case Received(r) => Resolved(r)
    case NetworkError(e) => Rejected(Transport(e))
  }

  /** The challenge to answer: the header's value when it is present and non-empty (`!wwwAuth` rejects ""). */
  function ChallengeOf(r: Response): (c: Option<string>)
    ensures c.Some? <==> r.wwwAuthenticate.Some? && r.wwwAuthenticate.value != ""
    ensures c.Some? ==> c.value == r.wwwAuthenticate.value
  {
    if r.wwwAuthenticate.Some? && r.wwwAuthenticate.value != "" then r.wwwAuthenticate else None
  }

  /** `options.method || 'GET'`: an undefined or empty method signs as GET. */
  function SignedMethod(init: RequestInit): (m: string)
    ensures init.requestMethod.Some? && init.requestMethod.value != "" ==> m == init.requestMethod.value
    ensures init.requestMethod.None? || init.requestMethod.value == "" ==> m == DefaultMethod
  {
    if init.requestMethod.Some? && init.requestMethod.value != "" then init.requestMethod.value else DefaultMethod
  }

  /** The digest-uri: path and query of the target, without scheme, host or fragment. */
  function DigestUri(url: Url): (u: string)
    ensures |u| == |url.pathname| + |url.search|
    ensures u[..|url.pathname|] == url.pathname && u[|url.pathname|..] == url.search
  {
    url.pathname + url.search
  }

  /** The builder's input for a parsed challenge; `nc` and `cnonce` are left to their defaults. */
  function ChallengeParams(url: Url, username: string, password: string, init: RequestInit, c: Challenge): (p: DigestParams)
    ensures p.username == username && p.password == password
    ensures p.requestMethod == SignedMethod(init) && p.uri == DigestUri(url)
    ensures p.realm == c.realm && p.nonce == c.nonce && p.qop == c.qop && p.opaqueData == c.opaqueData
    ensures Nc(p) == DefaultNc && forall g: Cnonce :: ClientNonce(p, g) == g
  {
    DigestParams(username, password, SignedMethod(init), DigestUri(url),
                 c.realm, c.nonce, c.qop, None, None, c.opaqueData)
  }

  /** The retry's options: the caller's, with `Authorization` set to the computed header. */
  function RetryInit(init: RequestInit, authorization: string): (r: RequestInit)
    ensures r.requestMethod == init.requestMethod && r.body == init.body
    ensures r.headers.Keys == init.headers.Keys + {AuthorizationName}
    ensures r.headers[AuthorizationName] == authorization
    ensures forall name | name in init.headers && name != AuthorizationName :: r.headers[name] == init.headers[name]
  {
    init.(headers := init.headers[AuthorizationName := authorization])
  }

  /**
   `authenticatedFetch`: the first request goes out as the caller wrote it;
   a 401 without a challenge rejects with "No WWW-Authenticate header found";
   a 401 with one is answered by exactly one retry whose reply settles the
   call; any other status settles the call with the first response.
   */
  function AuthenticatedFetch(
    url: Url, username: string, password: string, options: RequestInit,
    cnonce: Cnonce, md5: Md5, network: Network): (x: Exchange)
    ensures 1 <= |x.sent| <= 2
    ensures x.sent[0] == Request(url.text, options)
    ensures var first := network(0, x.sent[0]);
      |x.sent| == 2 <==> first.Received? && first.response.status == Unauthorized && ChallengeOf(first.response).Some?
    ensures var first := network(0, x.sent[0]);
      !(first.Received? && first.response.status == Unauthorized) ==> x.outcome == Settle(first)
    ensures var first := network(0, x.sent[0]);
      (first.Received? && first.response.status == Unauthorized && ChallengeOf(first.response).None?)
      ==> x.outcome == Rejected(MissingChallenge)
    ensures |x.sent| == 2 ==>
      var challenge := Parse(ChallengeOf(network(0, x.sent[0]).response).value);
      && x.sent[1] == Request(url.text, RetryInit(options,
           AuthorizationHeader(md5, ChallengeParams(url, username, password, options, challenge), cnonce)))
      && x.outcome == Settle(network(1, x.sent[1]))
  {
    var initial := Request(url.text, options);
    match network(0, initial)
    case NetworkError(e) => Exchange([initial], Rejected(Transport(e)))
    case Received(response) =>
      if response.status != Unauthorized then
        Exchange([initial], Resolved(response))
      else
        match ChallengeOf(response)
        case None => Exchange([initial], Rejected(MissingChallenge))
        case Some(wwwAuth) =>
          var challenge := Parse(wwwAuth);
          var header := AuthorizationHeader(md5, ChallengeParams(url, username, password, options, challenge), cnonce);
          var retry := Request(url.text, RetryInit(options, header));
          Exchange([initial, retry], Settle(network(1, retry)))
  }
}

=== FILE: fetch_lemmas.dfy ===
/**
 Properties of the two-step request: when no retry happens, that a retry
 is never repeated, what the retry keeps of the caller's request, and the
 response it signs; then the end-to-end scenarios of the client.
 */
module FetchLemmas {
  import opened Options
  import opened Directives
  import opened Rfc2617
  import opened Authorization
  import opened AuthorizationLemmas
  import opened ChallengeParser
  import opened ChallengeLemmas
  import opened DigestFetch

  /** Any status but 401 settles the call with that very response, after one request. */
  lemma NoChallengeNoRetry(
    url: Url, username: string, password: string, options: RequestInit,
    cnonce: Cnonce, md5: Md5, network: Network, response: Response)
    requires network(0, Request(url.text, options)) == Received(response)
    requires response.status != Unauthorized
    ensures var x := AuthenticatedFetch(url, username, password, options, cnonce, md5, network);
      x.sent == [Request(url.text, options)] && x.outcome == Resolved(response)
  {
  }

  /** A 401 without a usable challenge rejects with the missing-header error and is not retried. */
  lemma MissingChallengeRejects(
    url: Url, username: string, password: string, options: RequestInit,
    cnonce: Cnonce, md5: Md5, network: Network, response: Response)
    requires network(0, Request(url.text, options)) == Received(response)
    requires response.status == Unauthorized
    requires response.wwwAuthenticate.None? || response.wwwAuthenticate == Some("")
    ensures var x := AuthenticatedFetch(url, username, password, options, cnonce, md5, network);
      && x.sent == [Request(url.text, options)]
      && x.outcome.Rejected?
      && x.outcome.error.Message() == "No WWW-Authenticate header found"
  {
  }

  /** The retry is final: a second 401 is handed to the caller, not answered again. */
  lemma RetryIsFinal(
    url: Url, username: string, password: string, options: RequestInit,
    cnonce: Cnonce, md5: Md5, network: Network, challenged: Response, second: Response)
    requires network(0, Request(url.text, options)) == Received(challenged)
    requires challenged.status == Unauthorized && ChallengeOf(challenged).Some?
    requires var x := AuthenticatedFetch(url, username, password, options, cnonce, md5, network);
      network(1, x.sent[1]) == Received(second)
    ensures var x := AuthenticatedFetch(url, username, password, options, cnonce, md5, network);
      |x.sent| == 2 && x.outcome == Resolved(second)
  {
  }

  /**
   The retry goes to the same URL with the caller's method and body, keeps
   every caller header but `Authorization`, and sets that one to the computed
   header, overriding any the caller supplied.
   */
  lemma RetryKeepsCallerRequest(
    url: Url, username: string, password: string, options: RequestInit,
    cnonce: Cnonce, md5: Md5, network: Network)
    requires var x := AuthenticatedFetch(url, username, password, options, cnonce, md5, network);
      |x.sent| == 2
    ensures var x := AuthenticatedFetch(url, username, password, options, cnonce, md5, network);
      var retry := x.sent[1];
      && retry.url == url.text
      && retry.init.requestMethod == options.requestMethod
      && retry.init.body == options.body
      && retry.init.headers.Keys == options.headers.Keys + {AuthorizationName}
      && (forall name | name in options.headers && name != AuthorizationName ::
            retry.init.headers[name] == options.headers[name])
      && AuthorizationName in retry.init.headers
      && |retry.init.headers[AuthorizationName]| >= 7
      && retry.init.headers[AuthorizationName][..7] == "Digest "
  {
    var x := AuthenticatedFetch(url, username, password, options, cnonce, md5, network);
    var h := x.sent[1].init.headers[AuthorizationName];
    var lead := "Digest username=\"" + username + "\"";
    assert h[..|lead|] == lead;
    assert lead[..7] == "Digest ";
    assert h[..7] == h[..|lead|][..7];
  }

  /**
   The retry signs the challenge it answers: read back, its Authorization
   header carries the RFC 2617 response over the challenge's realm, nonce
   and qop (defaults "", "" and "auth"), the caller's method (default GET),
   the path and query, `nc=00000001` and the generated cnonce, and echoes the
   challenge's opaque exactly when it had one.
   */
  lemma RetrySignsChallenge(
    url: Url, username: string, password: string, options: RequestInit,
    cnonce: Cnonce, md5: Md5, network: Network, challenged: Response)
    requires network(0, Request(url.text, options)) == Received(challenged)
    requires challenged.status == Unauthorized && ChallengeOf(challenged).Some?
    requires Readable(ChallengeParams(url, username, password, options, Parse(challenged.wwwAuthenticate.value)), cnonce)
    ensures var x := AuthenticatedFetch(url, username, password, options, cnonce, md5, network);
      var c := Parse(challenged.wwwAuthenticate.value);
      var sent := ParseParams(x.sent[1].init.headers[AuthorizationName]);
      && Lookup(sent, "response") == Some(RequestDigest(
           md5, username, c.realm.GetOr(""), password, SignedMethod(options), DigestUri(url),
           c.nonce.GetOr(""), DefaultNc, cnonce, c.qop.GetOr(DefaultQop)))
      && Lookup(sent, "uri") == Some(DigestUri(url))
      && Lookup(sent, "qop") == Some(c.qop.GetOr(DefaultQop))
      && Lookup(sent, "nc") == Some(DefaultNc)
      && Lookup(sent, "cnonce") == Some(cnonce)
      && Lookup(sent, "opaque") == c.opaqueData
  {
    var c := Parse(challenged.wwwAuthenticate.value);
    var p := ChallengeParams(url, username, password, options, c);
    HeaderReadsBack(md5, p, cnonce);
  }

  /** A challenge offering realm, nonce and `qop="auth"`, the form the device sends. */
  function AuthChallenge(realm: string, nonce: string): string {
    "Digest " + Join([Quoted("realm", realm), Quoted("nonce", nonce), Quoted("qop", DefaultQop)])
  }

  /** Helper: the parsed challenge, field by field, from the five lookups. */
  lemma ChallengeFromLookups(header: string, c: Challenge)
    requires Lookup(ParseParams(header), "realm") == c.realm
    requires Lookup(ParseParams(header), "nonce") == c.nonce
    requires Lookup(ParseParams(header), "qop") == c.qop
    requires Lookup(ParseParams(header), "opaque") == c.opaqueData
    requires Lookup(ParseParams(header), "algorithm") == c.algorithm
    ensures Parse(header) == c
  {
  }

  /** The three directives realm, nonce and qop, in that order. */
  predicate IsAuthTriple(ds: seq<Directive>, realm: string, nonce: string, qop: string) {
    && |ds| == 3
    && ds[0] == Quoted("realm", realm)
    && ds[1] == Quoted("nonce", nonce)
    && ds[2] == Quoted("qop", qop)
  }

  /** realm is the first of three distinct keys, so it is set to its own value. */
  lemma RealmSet(header: string, ds: seq<Directive>, realm: string, nonce: string, qop: string)
    requires Scan(StripScheme(header)) == ds && IsAuthTriple(ds, realm, nonce, qop)
    ensures Lookup(ParseParams(header), "realm") == Some(realm)
  {
    ScannedFieldSet(header, ds, 0);
  }

  lemma NonceSet(header: string, ds: seq<Directive>, realm: string, nonce: string, qop: string)
    requires Scan(StripScheme(header)) == ds && IsAuthTriple(ds, realm, nonce, qop)
    ensures Lookup(ParseParams(header), "nonce") == Some(nonce)
  {
    ScannedFieldSet(header, ds, 1);
  }

  lemma QopSet(header: string, ds: seq<Directive>, realm: string, nonce: string, qop: string)
    requires Scan(StripScheme(header)) == ds && IsAuthTriple(ds, realm, nonce, qop)
    ensures Lookup(ParseParams(header), "qop") == Some(qop)
  {
    ScannedFieldSet(header, ds, 2);
  }

  /** Neither opaque nor algorithm occurs among realm, nonce, qop. */
  lemma ThreeFieldsUnset(header: string, ds: seq<Directive>, realm: string, nonce: string, qop: string)
    requires Scan(StripScheme(header)) == ds && IsAuthTriple(ds, realm, nonce, qop)
    ensures Lookup(ParseParams(header), "opaque") == None
    ensures Lookup(ParseParams(header), "algorithm") == None
  {
    ScannedFieldUnset(header, ds, "opaque");
    ScannedFieldUnset(header, ds, "algorithm");
  }

  /** A header that scans to realm, nonce and qop sets those three fields and none of the other two. */
  lemma ThreeFieldChallenge(header: string, ds: seq<Directive>, realm: string, nonce: string, qop: string)
    requires Scan(StripScheme(header)) == ds && IsAuthTriple(ds, realm, nonce, qop)
    ensures Parse(header) == Challenge(Some(realm), Some(nonce), Some(qop), None, None)
  {
    RealmSet(header, ds, realm, nonce, qop);
    NonceSet(header, ds, realm, nonce, qop);
    QopSet(header, ds, realm, nonce, qop);
    ThreeFieldsUnset(header, ds, realm, nonce, qop);
    ChallengeFromLookups(header, Challenge(Some(realm), Some(nonce), Some(qop), None, None));
  }

  /** The device's challenge form tokenizes to realm, nonce and qop, in that order. */
  lemma AuthChallengeScans(realm: string, nonce: string)
    requires QuotableValue(realm) && QuotableValue(nonce)
    ensures IsAuthTriple(Scan(StripScheme(AuthChallenge(realm, nonce))), realm, nonce, DefaultQop)
  {
    var ds := [Quoted("realm", realm), Quoted("nonce", nonce), Quoted("qop", DefaultQop)];
    ParseRendered(ds);
  }

  lemma AuthChallengeParses(realm: string, nonce: string)
    requires QuotableValue(realm) && QuotableValue(nonce)
    ensures Parse(AuthChallenge(realm, nonce)) == Challenge(Some(realm), Some(nonce), Some(DefaultQop), None, None)
  {
    var h := AuthChallenge(realm, nonce);
    AuthChallengeScans(realm, nonce);
    ThreeFieldChallenge(h, Scan(StripScheme(h)), realm, nonce, DefaultQop);
  }

  /** Helper: the defaults the builder falls back to are legal bare values. */
  lemma DefaultsAreBare()
    ensures BareValue(DefaultQop) && BareValue(DefaultNc)
  {
    assert DefaultQop == "auth" && DefaultNc == "00000001";
  }

  /** The builder's input for the device-style challenge reads back intact. */
  lemma AuthChallengeReadable(url: Url, username: string, password: string, init: RequestInit,
                              realm: string, nonce: string, cnonce: Cnonce)
    requires QuotableValue(username) && QuotableValue(DigestUri(url))
    requires QuotableValue(realm) && QuotableValue(nonce)
    ensures Parse(AuthChallenge(realm, nonce)) == Challenge(Some(realm), Some(nonce), Some(DefaultQop), None, None)
    ensures Readable(ChallengeParams(url, username, password, init, Parse(AuthChallenge(realm, nonce))), cnonce)
  {
    AuthChallengeParses(realm, nonce);
    DefaultsAreBare();
    assert QuotableValue(cnonce);
  }

  /**
   A request answered 401 with `Digest realm="R", nonce="N", qop="auth"`
   is sent again once, signed with the RFC 2617 digest over R, N, the
   default nc `00000001` and qop `auth`, and the call settles with the
   retry's reply rather than with the 401.
   */
  lemma ChallengedScenario(url: Url, username: string, password: string, init: RequestInit,
                           realm: string, nonce: string, cnonce: Cnonce, md5: Md5, network: Network, body: string)
    requires QuotableValue(username) && QuotableValue(DigestUri(url))
    requires QuotableValue(realm) && QuotableValue(nonce)
    requires network(0, Request(url.text, init)) == Received(Response(Unauthorized, Some(AuthChallenge(realm, nonce)), body))
    ensures var x := AuthenticatedFetch(url, username, password, init, cnonce, md5, network);
      && |x.sent| == 2
      && Lookup(ParseParams(x.sent[1].init.headers[AuthorizationName]), "response")
         == Some(RequestDigest(md5, username, realm, password, SignedMethod(init), DigestUri(url),
                               nonce, DefaultNc, cnonce, DefaultQop))
      && Lookup(ParseParams(x.sent[1].init.headers[AuthorizationName]), "response")
         == Some(md5(md5(username + ":" + realm + ":" + password) + ":" + nonce + ":00000001:" + cnonce + ":auth:"
                     + md5(SignedMethod(init) + ":" + DigestUri(url))))
      && x.outcome == Settle(network(1, x.sent[1]))
  {
    var x := AuthenticatedFetch(url, username, password, init, cnonce, md5, network);
    var digest := RequestDigest(md5, username, realm, password, SignedMethod(init), DigestUri(url),
                                nonce, DefaultNc, cnonce, DefaultQop);
    assert && |x.sent| == 2
           && Lookup(ParseParams(x.sent[1].init.headers[AuthorizationName]), "response") == Some(digest)
           && x.outcome == Settle(network(1, x.sent[1])) by {
      var challenged := Response(Unauthorized, Some(AuthChallenge(realm, nonce)), body);
      AuthChallengeReadable(url, username, password, init, realm, nonce, cnonce);
      RetrySignsChallenge(url, username, password, init, cnonce, md5, network, challenged);
    }
    DefaultDigestSpelledOut(md5, username, realm, password, SignedMethod(init), DigestUri(url), nonce, cnonce);
  }

  /** With the client's defaults, the RFC 2617 digest is MD5(MD5(u:realm:p) ":" nonce ":00000001:" cnonce ":auth:" MD5(method:uri)). */
  lemma DefaultDigestSpelledOut(md5: Md5, username: string, realm: string, password: string,
                                requestMethod: string, uri: string, nonce: string, cnonce: string)
    ensures RequestDigest(md5, username, realm, password, requestMethod, uri, nonce, DefaultNc, cnonce, DefaultQop)
         == md5(md5(username + ":" + realm + ":" + password) + ":" + nonce + ":00000001:" + cnonce + ":auth:"
                + md5(requestMethod + ":" + uri))
  {
    var ha1, ha2 := md5(username + ":" + realm + ":" + password), md5(requestMethod + ":" + uri);
    assert ":" + DefaultNc + ":" == ":00000001:";
    assert ":" + DefaultQop + ":" == ":auth:";
    assert ha1 + ":" + (nonce + ":" + DefaultNc + ":" + cnonce + ":" + DefaultQop + ":" + ha2)
        == ha1 + ":" + nonce + (":" + DefaultNc + ":") + cnonce + (":" + DefaultQop + ":") + ha2;
  }

  const StatsUrl := Url("http://10.0.0.2/cgi-bin/stats.cgi", "/cgi-bin/stats.cgi", "")
  const PlainGet := RequestInit(Some("GET"), map[], None)

  /** Helper: the literal inputs of the device scenario meet the read-back conditions. */
  lemma DeviceInputsReadable()
    ensures QuotableValue("u") && QuotableValue("antMiner") && QuotableValue("N1")
    ensures QuotableValue(DigestUri(StatsUrl)) && DigestUri(StatsUrl) == "/cgi-bin/stats.cgi"
    ensures SignedMethod(PlainGet) == "GET"
  {
    assert DigestUri(StatsUrl) == "/cgi-bin/stats.cgi" + "";
  }

  /** Helper: the literal strings of the device scenario, spelled out. */
  lemma DeviceStrings()
    ensures "u" + ":" + "antMiner" + ":" + "p" == "u:antMiner:p"
    ensures "GET" + ":" + "/cgi-bin/stats.cgi" == "GET:/cgi-bin/stats.cgi"
  {
  }

  /** Helper: the nonce-side suffix of the device scenario's response input. */
  lemma DeviceNonceJoin(ha1: string)
    ensures ha1 + ":" + "N1" + ":00000001:" == ha1 + ":N1:00000001:"
  {
    assert ":" + "N1" + ":00000001:" == ":N1:00000001:";
  }

  /**
   The device's own exchange: a GET of `/cgi-bin/stats.cgi` challenged with
   `Digest realm="antMiner", nonce="N1", qop="auth"` is retried with
   response MD5(MD5("u:antMiner:p") ":N1:00000001:" cnonce ":auth:"
   MD5("GET:/cgi-bin/stats.cgi")), and settles with the retry's reply.
   */
  lemma DeviceScenario(cnonce: Cnonce, md5: Md5, network: Network, body: string)
    requires network(0, Request(StatsUrl.text, PlainGet)) == Received(Response(Unauthorized, Some(AuthChallenge("antMiner", "N1")), body))
    ensures var x := AuthenticatedFetch(StatsUrl, "u", "p", PlainGet, cnonce, md5, network);
      && |x.sent| == 2
      && Lookup(ParseParams(x.sent[1].init.headers[AuthorizationName]), "response")
         == Some(md5(md5("u:antMiner:p") + ":N1:00000001:" + cnonce + ":auth:" + md5("GET:/cgi-bin/stats.cgi")))
      && x.outcome == Settle(network(1, x.sent[1]))
  {
    DeviceInputsReadable();
    DeviceStrings();
    DeviceNonceJoin(md5("u:antMiner:p"));
    ChallengedScenario(StatsUrl, "u", "p", PlainGet, "antMiner", "N1", cnonce, md5, network, body);
  }

  /** The device already trusts the caller: one request, and its response is returned unchanged. */
  lemma TrustedScenario(cnonce: Cnonce, md5: Md5, network: Network, body: string)
    requires network(0, Request(StatsUrl.text, PlainGet)) == Received(Response(200, None, body))
    ensures var x := AuthenticatedFetch(StatsUrl, "u", "p", PlainGet, cnonce, md5, network);
      x.sent == [Request(StatsUrl.text, PlainGet)] && x.outcome == Resolved(Response(200, None, body))
  {
    NoChallengeNoRetry(StatsUrl, "u", "p", PlainGet, cnonce, md5, network, Response(200, None, body));
  }

  /** 401 with no challenge header: the call rejects with the missing-header error, without a retry. */
  lemma UnchallengedScenario(cnonce: Cnonce, md5: Md5, network: Network, body: string)
    requires network(0, Request(StatsUrl.text, PlainGet)) == Received(Response(401, None, body))
    ensures var x := AuthenticatedFetch(StatsUrl, "u", "p", PlainGet, cnonce, md5, network);
      |x.sent| == 1 && x.outcome == Rejected(MissingChallenge)
  {
  }
}

=== FILE: options.dfy ===
/** The `undefined`-or-value shape of optional fields in the client's records. */
module Options {

  /** `None` stands for a field that is `undefined`. */
  datatype Option<+T> = None | Some(value: T) {

    /** The value, or `default` when the field is undefined (a destructuring default). */
    function GetOr(default: T): (r: T)
      ensures Some? ==> r == value
      ensures None? ==> r == default
    {
      match this
      case Some(v) => v
      case None => default
    }
  }
}

=== FILE: rfc2617.dfy ===
/**
 The request-digest of section 3.2.2 of RFC 2617 for `qop=auth` with the MD5
 algorithm, written in the RFC's own vocabulary (H, KD, A1, A2). MD5 itself
 (RFC 1321) is not modelled: it is a parameter, known only to return 32
 lowercase hexadecimal digits, as Node's `digest('hex')` does.
 */
module Rfc2617 {
  import opened Chars

  /** A 128-bit MD5 digest written as 32 lowercase hexadecimal digits. */
  type Digest = s: string | IsLowerHex(s, 32) witness "00000000000000000000000000000000"

  /** A client nonce: 8 random bytes written as 16 lowercase hexadecimal digits. */
  type Cnonce = s: string | IsLowerHex(s, 16) witness "0000000000000000"

  /** MD5 as a parameter: any function from strings to 32 lowercase hex digits; which hash of the string's bytes it computes is not modelled. */
  type Md5 = string -> Digest

  /** Section 3.2.1: `H(data) = MD5(data)`. */
  function H(md5: Md5, data: string): Digest {
    md5(data)
  }

  /** Section 3.2.1: `KD(secret, data) = H(concat(secret, ":", data))`. */
  function KD(md5: Md5, secret: string, data: string): Digest {
    H(md5, secret + ":" + data)
  }

  /** Section 3.2.2.2, algorithm "MD5": `A1 = username-value ":" realm-value ":" passwd`. */
  function A1(username: string, realm: string, password: string): string {
    username + ":" + realm + ":" + password
  }

  /** Section 3.2.2.3, qop "auth": `A2 = Method ":" digest-uri-value`. */
  function A2(requestMethod: string, uri: string): string {
    requestMethod + ":" + uri
  }

  /**
   Section 3.2.2.1, qop present:
   `KD(H(A1), nonce ":" nc ":" cnonce ":" qop ":" H(A2))`.
   */
  function RequestDigest(
    md5: Md5, username: string, realm: string, password: string, requestMethod: string, uri: string,
    nonce: string, nc: string, cnonce: string, qop: string): Digest
  {
    KD(md5, H(md5, A1(username, realm, password)),
       nonce + ":" + nc + ":" + cnonce + ":" + qop + ":" + H(md5, A2(requestMethod, uri)))
  }
}
